=== FILE: README.md ===
# SMT-LIB2 model statistics and Rotor header extraction, in Dafny

This project models two line-oriented parsers from the selfie benchmark
tooling. Both work over a generated SMT-LIB2 model file.

- `SMT2ModelParser.parse` (`benchmark/lib/model_parser.py`) makes one pass
  over the lines of a model.
  - It classifies every line as a comment (`^\s*;`), a blank line
    (`^\s*$`) or a code line.
  - Among the code lines it counts `(define-fun` commands, matched
    case-insensitively after leading whitespace.
  - On the first line that carries the Rotor signature
    (`^;\s*generated\s+SMT-LIB\s+file\s+(.+\.smt2)`) it marks the model as
    Rotor-generated and runs the header parser over the whole file, once.
  - `BTORModelParser.parse` is an empty stub.
- `SMT2RotorParser.parse_header` (`benchmark/lib/rotor_parser.py`) reads
  the header block of the model.
  - It tries an ordered table of thirteen patterns on every line with
    `re.search` semantics. `_set_header_field` stores each match in the
    header record: `int` of the captured digit run for numeric fields, the
    rest of the line for the source path, a boolean for the `nocomments`
    marker.
  - A key without a named branch would be recorded as a flag, with `_`
    written as `-`.
  - The scan stops after the first line that is neither a comment nor
    blank, and that line is still run through the table.

A file is a `seq<string>` of lines with their terminators removed. Every
regex is written out as an explicit string predicate; no regex engine is
modelled.
- `\s` is exactly Python's `str.isspace` set.
- `\d` is an ASCII digit.
- `.` is any character except a line feed.
- `re.IGNORECASE` matches ASCII letters in either case, plus the four extra
  letters Python folds: U+0130, U+0131, U+017F and U+212A.

The model is built from these modules:
- `Text`: character classes, maximal runs, literal matching, decimal
  conversion.
- `Patterns`: the line classifiers and the four shapes of header pattern.
  `Search` finds the leftmost match anywhere in a line.
- `HeaderFields` and `HeaderTable`: the record fields, the pattern table
  and the key-to-field dispatch.
- `LineScan`: a generic early-stopping scan, fold and last-match search.
- `RotorHeader`: the header record, `_set_header_field` and `parse_header`.
- `ModelParser`: `parse` as a fold over the lines, with its counters.
- `HeaderLines` and `Scenarios`: concrete header lines and small model
  files worked through the parsers.

`parse` is modelled as `ModelParser.Parse(file, prior)`.
- `prior` is the parser object's `rotor_header` before the call, because
  that slot survives across calls.
- It returns the statistics dictionary, the `rotor_header` slot afterwards,
  and how many times the header parser ran during the call.

## Model

| member | source | states |
|---|---|---|
| Patterns.IsComment | benchmark/lib/model_parser.py:50 | `^\s*;` as a predicate, without a contract of its own. Its meaning is stated by `Patterns.CommentMeaning`. |
| Patterns.IsBlank | benchmark/lib/model_parser.py:51 | `^\s*$` as a predicate, without a contract of its own. Its meaning is stated by `Patterns.BlankMeaning`. |
| Patterns.IsDefineFun | benchmark/lib/model_parser.py:52 | `^\s*\(define-fun` with `re.IGNORECASE`, without a contract of its own. Its meaning is stated by `Patterns.DefineFunMeaning`. |
| Patterns.IsCode | benchmark/lib/rotor_parser.py:42 | A line that is neither a comment nor blank: the header loop's stop test, and the `else` branch of model_parser.py line 72. No contract of its own. `RotorHeader.HeaderEndIsFirstCodeLine` and `ModelParser.StepCountsOneClass` state its role in the two loops. |
| Patterns.CommentMeaning | benchmark/lib/model_parser.py:50 | A line is a comment exactly when some whitespace-only prefix is followed by `;`. |
| Patterns.BlankMeaning | benchmark/lib/model_parser.py:51 | A line is blank exactly when every character is whitespace, the empty line included. |
| Patterns.CommentIsNotBlank | benchmark/lib/model_parser.py:50-51 | No comment line is blank, so the comment test taking precedence never hides a blank line. |
| Patterns.DefineFunMeaning | benchmark/lib/model_parser.py:52 | A line is a define-fun command exactly when a whitespace-only prefix is followed by `(define-fun` in any letter case. |
| Patterns.DefineFunIsCode | benchmark/lib/model_parser.py:72-77 | Every define-fun line is a code line, so only code lines can raise the define-fun count. |
| Patterns.IsSignature | benchmark/lib/model_parser.py:55 | A signature line has `;` in column 0 and is therefore also a comment line. |
| Patterns.SignatureMeaning | benchmark/lib/model_parser.py:55 | A line is a signature exactly when it starts with `;` and splits at some keyword positions into whitespace, `generated`, whitespace, `SMT-LIB`, whitespace, `file`, whitespace and a line-feed-free path ending in `.smt2`, followed by anything, since `re.match` only anchors the start. The last three whitespace runs are non-empty. |
| Patterns.IndentedLineIsNotSignature | benchmark/lib/model_parser.py:55 | A line that starts with whitespace is never a signature, although it may be a comment. |
| Patterns.DigitsAt | benchmark/lib/rotor_parser.py:11-21 | `lead(\d+)trail` tried at one index. A match starts with `lead` and captures a digit run. `Patterns.DigitsAtMeaning` and `Patterns.DigitsAtRun` state when it matches and what it captures. |
| Patterns.GapDigitsAt | benchmark/lib/rotor_parser.py:12 | `lead.*mid(\d+)` tried at one index. A match starts with `lead` and captures a digit run. `Patterns.GapDigitsAtMeaning` and `Patterns.GapDigitsAtEnd` state when it matches and what it captures. |
| Patterns.RestAt | benchmark/lib/rotor_parser.py:10 | `lead(.+)` tried at one index. A match starts with `lead` and captures a non-empty group. `Patterns.RestAtMeaning` states when it matches and what it captures. |
| Patterns.DigitsAtMeaning | benchmark/lib/rotor_parser.py:11-21 | `lead(\d+)trail` tried at one index matches exactly when a non-empty digit run after `lead` is followed by `trail`. It captures the longest digit run there. This holds for a trail that does not start with a digit, as every table trail does. |
| Patterns.GapDigitsAtMeaning | benchmark/lib/rotor_parser.py:12 | `lead.*mid(\d+)` tried at one index matches exactly when some line-feed-free gap is followed by `mid` and a digit. It captures the digits after the last such gap, as greedy `.*` backtracking does. |
| Patterns.RestAtMeaning | benchmark/lib/rotor_parser.py:10 | `lead(.+)` matches exactly when a non-line-feed character follows `lead`. It captures the longest line-feed-free stretch. |
| Patterns.TryAt | benchmark/lib/rotor_parser.py:10-22 | A match at an index starts with the pattern's literal. It has a group exactly when the pattern is not a marker, and a numeric pattern's group is a digit run. |
| Patterns.Search | benchmark/lib/rotor_parser.py:37 | A search result has a group exactly when the pattern is not a marker. A numeric pattern's group is a digit run. |
| Patterns.SearchIsLeftmost | benchmark/lib/rotor_parser.py:37 | `search` succeeds exactly when the pattern matches at some index, and it returns the match at the leftmost such index. |
| Patterns.SearchAtStart | benchmark/lib/rotor_parser.py:37 | A pattern that matches at index 0 is found there. |
| Patterns.SearchNeedsLead | benchmark/lib/rotor_parser.py:37 | A line without the pattern's literal anywhere is never matched. |
| Patterns.DigitsAtRun | benchmark/lib/rotor_parser.py:11 | On `lead + d + rest`, where `rest` does not start with a digit, `lead(\d+)` captures exactly `d`. |
| Patterns.GapDigitsAtEnd | benchmark/lib/rotor_parser.py:12 | Tried at index 0 of `lead + gap + mid + d`, `lead.*mid(\d+)` captures exactly `d`. This holds when the gap holds no line feed, `mid` is non-empty and holds neither a digit nor a line feed, and `d` is a digit run. |
| Text.Decimal | benchmark/lib/rotor_parser.py:52 | The decimal spelling of a number is a digit run without a leading zero. |
| Text.DigitsValue | benchmark/lib/rotor_parser.py:52-72 | `int` of an ASCII digit run is zero exactly when every digit is `0`. `Text.DigitsValueOfDecimal`, `Text.DecimalOfDigitsValue` and `Text.DigitsValueLeadingZero` relate it to the decimal spelling. |
| Text.DecimalOfDigitsValue | benchmark/lib/rotor_parser.py:52 | A digit run without a leading zero is the decimal spelling of its `int` value, so `int` is one-to-one on such runs. |
| Text.DigitsValueOfDecimal | benchmark/lib/rotor_parser.py:52 | `int` of the decimal spelling of `n` is `n`. |
| Text.DigitsValueLeadingZero | benchmark/lib/rotor_parser.py:52 | A leading zero does not change the value `int` gives a digit run. |
| Text.Normalize | benchmark/lib/rotor_parser.py:78 | The flag spelling has the key's length and characters, except that every `_` becomes `-`, so it holds no `_`. |
| HeaderFields.TableIndexed | benchmark/lib/rotor_parser.py:49-76 | The thirteen table entries write thirteen different fields, and none writes `constants_propagated`. |
| HeaderTable.HeaderPatterns | benchmark/lib/rotor_parser.py:9-23 | `HEADER_PATTERNS` as its thirteen key and pattern pairs in dictionary order. It is a constant without a contract. `HeaderTable.TableHasShape`, `HeaderTable.TableKeysSelectFields`, `HeaderTable.TableNumericFit`, `HeaderTable.TablePatternsWellFormed` and `HeaderFields.TableIndexed` state its properties. |
| HeaderTable.TableHasShape | benchmark/lib/rotor_parser.py:9-23 | Every table key has a named branch, so nothing reaches the flag list. Numeric branches belong exactly to the `(\d+)` patterns, and every pattern is well formed. |
| HeaderTable.Branch | benchmark/lib/rotor_parser.py:49-78 | The `if`/`elif` chain as a key-to-field map, without a contract of its own. Its meaning is stated by `HeaderTable.BranchMeaning`. |
| HeaderTable.BranchMeaning | benchmark/lib/rotor_parser.py:49-78 | A key selects a field exactly when it is that field's key. It falls through to the flag list exactly when it is the key of no field, `constants` included. |
| HeaderTable.TableKeysSelectFields | benchmark/lib/rotor_parser.py:49-76 | Each table key selects the branch listed for it. |
| HeaderTable.TableNumericFit | benchmark/lib/rotor_parser.py:9-23 | An entry has a `(\d+)` pattern exactly when its branch stores `int(value)`. |
| HeaderTable.TablePatternsWellFormed | benchmark/lib/rotor_parser.py:11-21 | No `(\d+)` in the table is followed by a digit, so the greedy run is the captured run. |
| RotorHeader.SetHeaderField | benchmark/lib/rotor_parser.py:47-78 | A named branch changes only its own field and leaves the flags alone. A numeric field gets `int(value)`, the source path gets the value, and the markers become true. A key without a branch leaves the record alone and appends its normalised spelling to the flags. |
| RotorHeader.ApplyEntry | benchmark/lib/rotor_parser.py:37-39 | One table entry changes only its own field. That field gets the captured value when the entry matches and keeps its value otherwise. |
| RotorHeader.EntryMatch | benchmark/lib/rotor_parser.py:37-38 | `pattern.search(line)` for one table entry. A match has a group exactly when the entry is not the marker, and a numeric entry's group is a digit run. `Patterns.SearchIsLeftmost` states which match is returned. |
| RotorHeader.ApplyFrom | benchmark/lib/rotor_parser.py:36-39 | Running the table over a line never touches the flags or `constants_propagated`, and keeps every set numeric field non-negative. |
| RotorHeader.ApplyPatterns | benchmark/lib/rotor_parser.py:36-39 | One line through the whole table never touches the flag list, the record's flags or `constants_propagated`, and keeps every set numeric field non-negative. `RotorHeader.ApplyPatternsNumeric` states what each numeric field becomes. |
| RotorHeader.ApplyFromNumeric | benchmark/lib/rotor_parser.py:36-39 | Among the remaining entries, only entry `t` changes its numeric field, and only when it matches. |
| RotorHeader.ApplyFromSourceFile | benchmark/lib/rotor_parser.py:36-39 | Among the remaining entries, only the `source_file` entry changes the source path, and only when it matches. |
| RotorHeader.ApplyFromNoComments | benchmark/lib/rotor_parser.py:36-39 | `comments_removed` is on after the remaining entries exactly when it was on before or the `nocomments` entry matches. |
| RotorHeader.ApplyPatternsNumeric | benchmark/lib/rotor_parser.py:36-39 | On one line, a numeric field ends up with its own entry's capture, or keeps its value when that entry does not match. Other entries firing on the same line do not disturb it. |
| RotorHeader.ParseHeader | benchmark/lib/rotor_parser.py:25-45 | The returned header has an empty flag list and `constants_propagated` off, and every set numeric field is non-negative. |
| RotorHeader.ScanHeader | benchmark/lib/rotor_parser.py:33-43 | The header loop as an early-stopping scan, without a contract of its own. `RotorHeader.ScanHeaderIsFold` and `RotorHeader.StopsAfterFirstCodeLine` state what it computes. |
| RotorHeader.EmptyHeader | benchmark/lib/rotor_parser.py:27-28 | The header before the scan: every optional field `None`, both booleans off, no flags. It is a constant without a contract. `RotorHeader.ParseHeader` and `RotorHeader.ParsedNumericField` state what survives of it. |
| RotorHeader.Finish | benchmark/lib/rotor_parser.py:44 | `header.flags = flags`: the returned record carries the collected flag list, and its source path, `constants_propagated` and `comments_removed` are those of the scanned record. `RotorHeader.FinishKeepsNumeric` states that the numeric fields do not change either. |
| RotorHeader.FinishKeepsNumeric | benchmark/lib/rotor_parser.py:44 | Attaching the flag list leaves every numeric field as it was. |
| LineScan.ScanUntilIsFold | benchmark/lib/rotor_parser.py:34-43 | The early-stopping loop computes the plain fold of exactly the lines up to and including the first stopping line. |
| LineScan.StopEndIsFirst | benchmark/lib/rotor_parser.py:41-43 | The loop reads every non-stopping line before the first stopping line, that line itself, and nothing after it. It reads the whole file when no line stops it. |
| LineScan.StopEndAfter | benchmark/lib/rotor_parser.py:41-43 | Non-stopping lines closed by a stopping line end the loop right there, whatever follows. |
| LineScan.ScanUntilKeeps | benchmark/lib/rotor_parser.py:34-43 | A property that every line step keeps holds after the loop. |
| LineScan.LastFoundIsLast | benchmark/lib/rotor_parser.py:34-39 | The last-match search returns what is found on some line after which nothing is found. |
| LineScan.LastFoundAbsent | benchmark/lib/rotor_parser.py:34-39 | The last-match search finds nothing exactly when no line yields anything. |
| RotorHeader.ScanHeaderIsFold | benchmark/lib/rotor_parser.py:34-43 | The header loop equals the table folded over the header block: the lines up to and including the first code line. |
| RotorHeader.HeaderEndIsFirstCodeLine | benchmark/lib/rotor_parser.py:41-43 | The header block holds only comment and blank lines, except its last line, which is the first code line when one exists. |
| RotorHeader.StopsAfterFirstCodeLine | benchmark/lib/rotor_parser.py:34-43 | Lines after the first code line never affect the header. That code line is still run through the table before the loop stops. |
| RotorHeader.LastMatchIsLast | benchmark/lib/rotor_parser.py:34-39 | The last match of a pattern over a block comes from a line after which the pattern is not found. There is none exactly when no line matches. |
| RotorHeader.FoldNumeric | benchmark/lib/rotor_parser.py:34-39 | Last write wins: over a run of lines, a numeric field takes the capture from the last line where its pattern is found. It keeps its value when no line matches. |
| RotorHeader.FoldSourceFile | benchmark/lib/rotor_parser.py:34-39 | Last write wins for the source path. |
| RotorHeader.FoldNoComments | benchmark/lib/rotor_parser.py:34-39 | `comments_removed` is on after a run of lines exactly when it was on before or some line carries the marker. |
| RotorHeader.ParsedNumericField | benchmark/lib/rotor_parser.py:34-45 | A parsed numeric field is `int` of its capture on the last header-block line where its pattern is found. It is absent when no such line exists. |
| RotorHeader.ParsedSourceFile | benchmark/lib/rotor_parser.py:34-45 | The parsed source path is the capture on the last header-block line carrying the `for RISC-V executable obtained from` phrase, or absent. |
| RotorHeader.ParsedCommentsRemoved | benchmark/lib/rotor_parser.py:34-45 | `comments_removed` is set exactly when some header-block line carries `; with -nocomments`. |
| ModelParser.ZeroStats | benchmark/lib/model_parser.py:40-47 | The statistics dictionary at the start of each `parse`: every counter 0 and `is_rotor_generated` false. It is a constant without a contract. `ModelParser.ParseEmpty` and `ModelParser.ScanIgnoresPrior` state its role. |
| ModelParser.Step | benchmark/lib/model_parser.py:61-77 | One loop iteration, without a contract of its own. `ModelParser.StepCountsOneClass`, `ModelParser.StepTally` and `ModelParser.ScanSignature` state what it does to the counters and the signature flag. |
| ModelParser.Scan | benchmark/lib/model_parser.py:58-77 | After any prefix, the line total is the number of lines read and equals comment + blank + code lines. The define-fun count never exceeds the code-line count. |
| ModelParser.StepCountsOneClass | benchmark/lib/model_parser.py:66-77 | Each line raises the total by one and exactly one class counter by one: comment, blank or code, as the line is. Only a code line can raise the define-fun count. |
| ModelParser.StepTally | benchmark/lib/model_parser.py:66-77 | One line adds one to each counter whose line test holds, and nothing to the others. |
| ModelParser.ScanCounts | benchmark/lib/model_parser.py:58-77 | After any prefix, each counter equals the number of lines read that pass its test. |
| ModelParser.ParseCounts | benchmark/lib/model_parser.py:40-80 | The comment, blank, code and define-fun counts of a parse are the numbers of file lines that pass each test. |
| ModelParser.ScanSignature | benchmark/lib/model_parser.py:62-63 | After any prefix, the model is marked Rotor-generated exactly when a signature line has been read. |
| ModelParser.ScanHeaderCalls | benchmark/lib/model_parser.py:62-64 | The header parser has run once, on the whole file, if a signature has been read, and never otherwise. Without a signature the earlier header stays. |
| ModelParser.Parse | benchmark/lib/model_parser.py:28-80 | The full contract of `parse`. The counters partition the lines and define-fun ≤ code. The model is Rotor-generated exactly when some line is a signature. The header parser runs at most once, and exactly once when the model is Rotor-generated. The header slot afterwards is the header of the whole file or the earlier value. |
| ModelParser.ParseEmpty | benchmark/lib/model_parser.py:40-47 | An empty file gives the zeroed dictionary and `False`, and leaves the header slot alone. |
| ModelParser.ScanIgnoresPrior | benchmark/lib/model_parser.py:40-47 | The statistics and the header-call count do not depend on the header the parser held before, because every call starts from zeroed counters. |
| ModelParser.ParseTwice | benchmark/lib/model_parser.py:40-80 | Parsing the same lines again on the same parser gives the same statistics and the same header. |
| ModelParser.FreshParserHeader | benchmark/lib/model_parser.py:62-64 | A fresh parser holds a header after `parse` exactly when the file has a signature line, and then it is the header of the whole file. |
| ModelParser.BtorParse | benchmark/lib/model_parser.py:103-104 | The BTOR2 parser returns nothing. |
| Scenarios.SignatureRecognised | benchmark/lib/model_parser.py:55 | `; generated SMT-LIB file foo.smt2` is a signature line. |
| Scenarios.SmallModelStats | benchmark/lib/model_parser.py:58-80 | The model signature, one definition and an empty line gives 3 lines: 1 comment, 1 code, 1 blank, 1 define-fun, Rotor-generated. |
| Scenarios.IndentedSignatureIgnored | benchmark/lib/model_parser.py:55 | An indented signature is counted as a comment only. The model is not Rotor-generated and the header parser never runs. |
| Scenarios.OneLineNumeric | benchmark/lib/rotor_parser.py:49-72 | A one-line header on which numeric entry `t` captures `v` gets `int(v)` in that field. |
| Scenarios.OneLineAbsent | benchmark/lib/rotor_parser.py:34-39 | A one-line header on which numeric entry `t` does not match leaves that field absent. |
| Scenarios.KminRoundTrip | benchmark/lib/rotor_parser.py:11 | `; with -kmin n` is read back as `kmin = n`. |
| Scenarios.BoundsRoundTrip | benchmark/lib/rotor_parser.py:11-12 | `; with -kmin a -kmax b` sets both bounds from one line: `kmin = a` and `kmax = b`. |
| Scenarios.KmaxWithoutGap | benchmark/lib/rotor_parser.py:12 | The `kmax` pattern does not match `; with -kmax 5`, because it needs a space before `-kmax` after `; with `. |
| Scenarios.KmaxWithoutGapHeader | benchmark/lib/rotor_parser.py:12 | The header of `; with -kmax 5` has no `kmax`. |
| Scenarios.NoCommentsHeader | benchmark/lib/rotor_parser.py:22 | The header of `; with -nocomments` has `comments_removed` set and an empty flag list. |

## Left out

- Opening and reading the file, and Python's text-mode newline handling. A file is given as its lines with the terminators removed, so the `$` of the blank test and the `.` of the path groups meet no line feed.
- Exceptions from `open` (a missing file) are not modelled.
- `SMT2ModelParser.log`, `rotor_header.log()` and all printing are output only.
- `benchmark/lib/model_presenter.py`, `benchmark/lib/generate.py`, `benchmark/lib/paths.py` and `benchmark/bt.py` are presentation, process orchestration and CLI wiring; they are not part of this model.
- BTOR2 parsing: `BTORModelParser.parse` is modelled only as the stub it is. The empty `BTOR2RotorParser` class has no behaviour.
- `model_parser.py` calls `RotorParser.parse_header` from `lib.smt_rotor_header`, which is not part of this model. It is taken to be `SMT2RotorParser.parse_header`. `ModelParser.Scan` takes the header parser as a parameter, and `ModelParser.Parse` supplies `RotorHeader.ParseHeader`.
- The header record class `RotorModelData` is not part of this model. `RotorHeader.EmptyHeader` assumes every optional field starts as `None`, both booleans as `False` and the flag list empty.
- `header.bytestoread` (rotor_parser.py line 72) is modelled as the record's bytes-to-read field. Whether the record names that attribute differently cannot be told without the record class.
- Unicode digits: Python's `\d` also matches non-ASCII decimal digits, and `int` accepts them. The model's `\d` is ASCII only.
- RotorHeader.SetHeaderField: requires a non-empty ASCII digit run as the value of a numeric key (`Storable`), and gives `int(value)` for a run of any length. Its only call site (rotor_parser.py lines 37-39) passes the `(\d+)` group of a numeric pattern, so a sign, surrounding whitespace or `_` separators, which Python's `int` would also accept, never reach it. Non-ASCII decimal digits do reach `int` in Python, because `\d` in a str pattern matches them; they are left out only because the model's `\d` is ASCII (the Unicode digits line above). CPython's `int` also raises `ValueError` on a string of more than `sys.get_int_max_str_digits()` digits (4300 by default since Python 3.11, and in the 3.10.7, 3.9.14 and 3.8.14 releases), so a header line such as `; with -kmin ` followed by 4301 digits makes `parse_header`, and through model_parser.py line 64 `parse`, end with that exception. The model has no such limit: for captures longer than the limit, `RotorHeader.ParsedNumericField`, `Scenarios.KminRoundTrip` and `Scenarios.BoundsRoundTrip` give a field value where Python raises.
- The general regex engine: only the four pattern shapes the table uses (`lead(\d+)trail`, `lead.*mid(\d+)`, `lead(.+)`, a bare literal) and the four line tests are modelled.
- The signature's path group `(.+\.smt2)` is recognised but its text is not kept, because `parse` never reads it.
- ModelParser.Scan: its own contract states only the partition and the define-fun bound. The per-class counts, the signature flag and the header call are stated by `ModelParser.ScanCounts`, `ModelParser.ScanSignature` and `ModelParser.ScanHeaderCalls`.
- Patterns.Search: its own contract states only the shape of a match. Its meaning (the leftmost index where the pattern matches) is `Patterns.SearchIsLeftmost`.
- Patterns.TryAt: its own contract states only the shape of a match. What each shape matches is stated by `Patterns.DigitsAtMeaning`, `Patterns.GapDigitsAtMeaning` and `Patterns.RestAtMeaning`.

=== FILE: header_fields.dfy ===
/**
 The fields of the Rotor header record that the field dispatch can write,
 and the field each entry of the header pattern table writes, in table
 order.
 */
module HeaderFields {

  /** The fields the dispatch can write, one per named branch. */
  datatype Field =
    | SourceFile | Kmin | Kmax | BytecodeSize | DataSize
    | VirtualAddressSpace | CodeWordSize | MemoryWordSize
    | HeapAllowance | StackAllowance | Cores | BytesToRead
    | ConstantsPropagated | CommentsRemoved
  {
    /** The branch stores `int(value)`. */
    predicate Numeric() {
      !(SourceFile? || ConstantsPropagated? || CommentsRemoved?)
    }
  }

  /** The branch each table entry selects, in table order. */
  const TableFields: seq<Field> := [
    SourceFile, Kmin, Kmax, BytecodeSize, DataSize, VirtualAddressSpace, CodeWordSize,
    MemoryWordSize, HeapAllowance, StackAllowance, Cores, BytesToRead, CommentsRemoved
  ]

  /** The position of a field in the table; `constantsPropagated`, which
      has no entry, comes after all of them. */
  function FieldIndex(f: Field): nat {
    match f
    case SourceFile => 0
    case Kmin => 1
    case Kmax => 2
    case BytecodeSize => 3
    case DataSize => 4
    case VirtualAddressSpace => 5
    case CodeWordSize => 6
    case MemoryWordSize => 7
    case HeapAllowance => 8
    case StackAllowance => 9
    case Cores => 10
    case BytesToRead => 11
    case CommentsRemoved => 12
    case ConstantsPropagated => 13
  }

  /** Entry `i` writes the field at position `i`: so no two table entries
      write the same field, and none writes `constantsPropagated`. */
  lemma TableIndexed()
    ensures forall i :: 0 <= i < |TableFields| ==> FieldIndex(TableFields[i]) == i
  {
  }

  /** The table entries the bounds are read from. */
  lemma BoundFields()
    ensures TableFields[1] == Kmin && TableFields[2] == Kmax
  {
  }
}

=== FILE: header_lines.dfy ===
/**
 The header lines Rotor writes for its bounds, and where their literal
 pieces sit: the facts the bounds round trip is built from.
 */
module HeaderLines {
  import opened Text

  const WithLead := "; with "
  const KminFlag := "-kmin "
  const KminLead := "; with -kmin "
  const KmaxMid := " -kmax "

  /** The line Rotor writes for the bounds `kmin` and `kmax`. */
  function BoundsLine(kmin: nat, kmax: nat): string {
    KminLead + Decimal(kmin) + KmaxMid + Decimal(kmax)
  }

  /** Appending is associative. */
  lemma Assoc(a: string, b: string, c: string)
    ensures a + (b + c) == a + b + c
  {
  }

  /** `; with -kmin ` is `; with ` followed by `-kmin `. */
  lemma KminLeadSplits()
    ensures KminLead == WithLead + KminFlag
  {
  }

  /** ` -kmax ` holds neither a line feed nor a digit. */
  lemma KmaxMidPlain()
    ensures |KmaxMid| > 0
    ensures forall j :: 0 <= j < |KmaxMid| ==> NotNewline(KmaxMid[j]) && !IsDigit(KmaxMid[j])
  {
  }

  /** `-kmin ` followed by a number holds no line feed. */
  lemma KminGapPlain(a: nat)
    ensures var gap := KminFlag + Decimal(a); forall j :: 0 <= j < |gap| ==> NotNewline(gap[j])
  {
    var d := Decimal(a);
    var gap := KminFlag + d;
    forall j | 0 <= j < |gap| ensures NotNewline(gap[j]) {
      if j >= |KminFlag| {
        assert gap[j] == d[j - |KminFlag|];
      }
    }
  }

  /** A bounds line read as `; with -kmin `, the first number, and the rest. */
  lemma BoundsLineForKmin(a: nat, b: nat)
    ensures BoundsLine(a, b) == KminLead + Decimal(a) + (KmaxMid + Decimal(b))
  {
    Assoc(KminLead + Decimal(a), KmaxMid, Decimal(b));
  }

  /** A bounds line read as `; with `, the gap up to ` -kmax `, ` -kmax `
      and the second number. */
  lemma BoundsLineForKmax(a: nat, b: nat)
    ensures BoundsLine(a, b) == WithLead + (KminFlag + Decimal(a)) + KmaxMid + Decimal(b)
  {
    KminLeadSplits();
    Assoc(WithLead, KminFlag, Decimal(a));
  }
}

=== FILE: header_table.dfy ===
/**
 The Rotor header pattern table: thirteen named patterns in the order the
 scan tries them, the dispatch from a table key to the field it writes,
 and the facts about the table the header scan relies on.
 */
module HeaderTable {
  import opened Wrappers
  import opened Patterns
  import opened HeaderFields

  /** The pattern table, in the order the dictionary lists it; the scan
      tries the entries in this order on every line. */
  const HeaderPatterns: seq<(string, Pattern)> := [
    ("source_file", Rest("; for RISC-V executable obtained from ")),
    ("kmin", Digits("; with -kmin ", "")),
    ("kmax", GapDigits("; with ", " -kmax ")),
    ("bytecode", Digits("; with ", " bytes of code")),
    ("data", Digits("; and ", " bytes of data")),
    ("virtual_address", Digits("; with -virtualaddressspace ", "")),
    ("code_word", Digits("; with -codewordsize ", "")),
    ("memory_word", Digits("; with -memorywordsize ", "")),
    ("heap", Digits("; with -heapallowance ", "")),
    ("stack", Digits("; with -stackallowance ", "")),
    ("cores", Digits("; with -cores ", "")),
    ("bytes_to_read", Digits("; with -bytestoread ", "")),
    ("nocomments", Marker("; with -nocomments"))
  ]

  /** The branch of the dispatch a key selects, checked in the order the
      dispatch lists them; `None` is the fall-through that records the key
      as a flag. */
  function Branch(key: string): Option<Field> {
    if key == "source_file" then Some(SourceFile)
    else if key == "kmin" then Some(Kmin)
    else if key == "kmax" then Some(Kmax)
    else if key == "bytecode" then Some(BytecodeSize)
    else if key == "data" then Some(DataSize)
    else if key == "virtual_address" then Some(VirtualAddressSpace)
    else if key == "code_word" then Some(CodeWordSize)
    else if key == "memory_word" then Some(MemoryWordSize)
    else if key == "heap" then Some(HeapAllowance)
    else if key == "stack" then Some(StackAllowance)
    else if key == "cores" then Some(Cores)
    else if key == "bytes_to_read" then Some(BytesToRead)
    else if key == "constants" then Some(ConstantsPropagated)
    else if key == "nocomments" then Some(CommentsRemoved)
    else None
  }

  /** The key that names each branch of the dispatch. */
  function FieldKey(f: Field): string {
    match f
    case SourceFile => "source_file"
    case Kmin => "kmin"
    case Kmax => "kmax"
    case BytecodeSize => "bytecode"
    case DataSize => "data"
    case VirtualAddressSpace => "virtual_address"
    case CodeWordSize => "code_word"
    case MemoryWordSize => "memory_word"
    case HeapAllowance => "heap"
    case StackAllowance => "stack"
    case Cores => "cores"
    case BytesToRead => "bytes_to_read"
    case ConstantsPropagated => "constants"
    case CommentsRemoved => "nocomments"
  }

  /** The dispatch selects branch `f` exactly for the key naming `f`; every
      other key falls through to the flag list. */
  lemma BranchMeaning(key: string)
    ensures forall f: Field :: Branch(key) == Some(f) <==> key == FieldKey(f)
    ensures Branch(key).None? <==> forall f: Field :: key != FieldKey(f)
  {
    if Branch(key).Some? {
      assert key == FieldKey(Branch(key).value);
    }
  }

  /** The facts about the table that the scan relies on. */
  predicate TableShape() {
    && |TableFields| == |HeaderPatterns|
    && (forall i :: 0 <= i < |HeaderPatterns| ==> Branch(HeaderPatterns[i].0) == Some(TableFields[i]))
    && (forall i :: 0 <= i < |HeaderPatterns| ==> HeaderPatterns[i].1.WellFormed())
    && (forall i :: 0 <= i < |HeaderPatterns| ==> (TableFields[i].Numeric() <==> HeaderPatterns[i].1.Numeric()))
  }

  /** Every key of the table has a branch of its own (so nothing ever
      reaches the flag list), numeric branches belong exactly to the
      `(\d+)` patterns, and every pattern is well formed. */
  lemma TableHasShape()
    ensures TableShape()
  {
    TableKeysSelectFields();
    TablePatternsWellFormed();
    TableNumericFit();
  }

  /** Each table key selects the branch listed for it in `TableFields`. */
  lemma TableKeysSelectFields()
    ensures |TableFields| == |HeaderPatterns|
    ensures forall i :: 0 <= i < |HeaderPatterns| ==> Branch(HeaderPatterns[i].0) == Some(TableFields[i])
  {
    FirstKeysSelectFields();
    MiddleKeysSelectFields();
    LastKeysSelectFields();
  }

  /** Keys 0 to 3 (`source_file` to `bytecode`) select their listed
      branches. */
  lemma FirstKeysSelectFields()
    ensures forall i :: 0 <= i < 4 ==> Branch(HeaderPatterns[i].0) == Some(TableFields[i])
  {
  }

  /** Keys 4 to 7 (`data` to `memory_word`) select their listed branches. */
  lemma MiddleKeysSelectFields()
    ensures forall i :: 4 <= i < 8 ==> Branch(HeaderPatterns[i].0) == Some(TableFields[i])
  {
  }

  /** Keys 8 to 12 (`heap` to `nocomments`) select their listed branches. */
  lemma LastKeysSelectFields()
    ensures forall i :: 8 <= i < 13 ==> Branch(HeaderPatterns[i].0) == Some(TableFields[i])
  {
  }

  /** No `(\d+)` of the table is followed by a digit. */
  lemma TablePatternsWellFormed()
    ensures forall i :: 0 <= i < |HeaderPatterns| ==> HeaderPatterns[i].1.WellFormed()
  {
  }

  /** Exactly the numeric fields get a `(\d+)` pattern. */
  lemma TableNumericFit()
    ensures |TableFields| == |HeaderPatterns|
    ensures forall i :: 0 <= i < |HeaderPatterns| ==> (TableFields[i].Numeric() <==> HeaderPatterns[i].1.Numeric())
  {
    FirstNumericFit();
    LastNumericFit();
  }

  /** Entries 0 to 6 get a `(\d+)` pattern exactly when their field is
      numeric. */
  lemma FirstNumericFit()
    ensures forall i :: 0 <= i < 7 ==> (TableFields[i].Numeric() <==> HeaderPatterns[i].1.Numeric())
  {
  }

  /** Entries 7 to 12 get a `(\d+)` pattern exactly when their field is
      numeric. */
  lemma LastNumericFit()
    ensures forall i :: 7 <= i < 13 ==> (TableFields[i].Numeric() <==> HeaderPatterns[i].1.Numeric())
  {
  }

  /** The facts of `TableShape` for entry `i` alone. */
  lemma EntryShape(i: nat)
    requires i < |HeaderPatterns|
    ensures i < |TableFields|
    ensures Branch(HeaderPatterns[i].0) == Some(TableFields[i])
    ensures HeaderPatterns[i].1.WellFormed()
    ensures TableFields[i].Numeric() <==> HeaderPatterns[i].1.Numeric()
  {
    TableHasShape();
  }
}

=== FILE: line_scan.dfy ===
/**
 The two loop shapes the header scan is built from, stated once for any
 per-line step: a scan over lines that stops after the first line
 satisfying a stop test, the plain fold it is compared with, and the
 search for the last line on which something is found.
 */
module LineScan {
  import opened Wrappers

  /** Each line goes through `step`; the scan stops right after the first
      line for which `stop` holds, so that line is still processed. */
  function ScanUntil<A>(lines: seq<string>, acc: A, step: (A, string) -> A, stop: string -> bool): A
    decreases |lines|
  {
    if |lines| == 0 then acc
    else
      var next := step(acc, lines[0]);
      if stop(lines[0]) then next else ScanUntil(lines[1..], next, step, stop)
  }

  /** On a single line the scan is one step. */
  lemma ScanUntilOne<A>(line: string, acc: A, step: (A, string) -> A, stop: string -> bool)
    ensures ScanUntil([line], acc, step, stop) == step(acc, line)
  {
    assert [line][1..] == [];
  }

  /** How many lines the scan reads: up to and including the first line
      for which `stop` holds, or all of them when there is none. */
  function StopEnd(lines: seq<string>, stop: string -> bool): (n: nat)
    ensures n <= |lines|
    decreases |lines|
  {
    if |lines| == 0 then 0
    else if stop(lines[0]) then 1
    else 1 + StopEnd(lines[1..], stop)
  }

  /** `step` applied to `lines` one after another, read back to front. */
  function FoldLines<A>(lines: seq<string>, acc: A, step: (A, string) -> A): A
    decreases |lines|
  {
    if |lines| == 0 then acc
    else step(FoldLines(lines[..|lines| - 1], acc, step), lines[|lines| - 1])
  }

  /** The scan reads every line before the first stopping line, that line
      itself, and nothing after it. */
  lemma {:induction false} StopEndIsFirst(lines: seq<string>, stop: string -> bool)
    ensures forall i :: 0 <= i < StopEnd(lines, stop) - 1 ==> !stop(lines[i])
    ensures StopEnd(lines, stop) == |lines| || (0 < StopEnd(lines, stop) && stop(lines[StopEnd(lines, stop) - 1]))
    ensures StopEnd(lines, stop) < |lines| || forall i :: 0 <= i < |lines| - 1 ==> !stop(lines[i])
    decreases |lines|
  {
    if |lines| > 0 && !stop(lines[0]) {
      StopEndIsFirst(lines[1..], stop);
      assert forall i :: 1 <= i < |lines| ==> lines[i] == lines[1..][i - 1];
    }
  }

  /** Non-stopping lines closed by a stopping line: the scan ends just
      after it, whatever follows. */
  lemma {:induction false} StopEndAfter(prefix: seq<string>, line: string, rest: seq<string>, stop: string -> bool)
    requires forall i :: 0 <= i < |prefix| ==> !stop(prefix[i])
    requires stop(line)
    ensures StopEnd(prefix + [line] + rest, stop) == |prefix| + 1
    decreases |prefix|
  {
    var lines := prefix + [line] + rest;
    if |prefix| == 0 {
      assert lines[0] == line;
    } else {
      assert lines[0] == prefix[0];
      assert lines[1..] == prefix[1..] + [line] + rest;
      StopEndAfter(prefix[1..], line, rest, stop);
    }
  }

  /** Folding a line in front is the same as stepping it first. */
  lemma {:induction false} FoldCons<A>(line: string, rest: seq<string>, acc: A, step: (A, string) -> A)
    ensures FoldLines([line] + rest, acc, step) == FoldLines(rest, step(acc, line), step)
    decreases |rest|
  {
    if |rest| == 0 {
      assert FoldLines([line], acc, step) == step(FoldLines([], acc, step), line);
    } else {
      var all := [line] + rest;
      assert all[..|all| - 1] == [line] + rest[..|rest| - 1];
      FoldCons(line, rest[..|rest| - 1], acc, step);
    }
  }

  /** A property every step keeps holds after the scan as well. */
  lemma {:induction false} ScanUntilKeeps<A>(lines: seq<string>, acc: A, step: (A, string) -> A, stop: string -> bool, inv: A -> bool)
    requires inv(acc)
    requires forall a, line :: inv(a) ==> inv(step(a, line))
    ensures inv(ScanUntil(lines, acc, step, stop))
    decreases |lines|
  {
    if |lines| > 0 && !stop(lines[0]) {
      ScanUntilKeeps(lines[1..], step(acc, lines[0]), step, stop, inv);
    }
  }

  /** The early-stopping scan computes the fold of exactly the lines it
      reads. */
  lemma {:induction false} ScanUntilIsFold<A>(lines: seq<string>, acc: A, step: (A, string) -> A, stop: string -> bool)
    ensures ScanUntil(lines, acc, step, stop) == FoldLines(lines[..StopEnd(lines, stop)], acc, step)
    decreases |lines|
  {
    if |lines| > 0 {
      var next := step(acc, lines[0]);
      FoldCons(lines[0], [], acc, step);
      if stop(lines[0]) {
        assert lines[..1] == [lines[0]] + [];
      } else {
        var n := StopEnd(lines[1..], stop);
        ScanUntilIsFold(lines[1..], next, step, stop);
        assert lines[..n + 1] == [lines[0]] + lines[1..][..n];
        FoldCons(lines[0], lines[1..][..n], acc, step);
      }
    }
  }

  /** What `find` reports for the last line of `lines` on which it finds
      anything, or `None` when it finds nothing on any line. */
  function LastFound<T>(lines: seq<string>, find: string -> Option<T>): (r: Option<T>)
    ensures r.Some? ==> exists i :: 0 <= i < |lines| && r == find(lines[i])
    decreases |lines|
  {
    if |lines| == 0 then None
    else
      var m := find(lines[|lines| - 1]);
      if m.Some? then m else LastFound(lines[..|lines| - 1], find)
  }

  /** A result of `LastFound` comes from a line after which `find` finds
      nothing. */
  lemma {:induction false} LastFoundIsLast<T>(lines: seq<string>, find: string -> Option<T>)
    ensures LastFound(lines, find).Some? ==>
      exists i :: 0 <= i < |lines| && LastFound(lines, find) == find(lines[i])
                  && (forall j :: i < j < |lines| ==> find(lines[j]).None?)
    decreases |lines|
  {
    if |lines| > 0 {
      var n := |lines| - 1;
      var init := lines[..n];
      if find(lines[n]).None? {
        assert LastFound(lines, find) == LastFound(init, find);
        LastFoundIsLast(init, find);
        if LastFound(init, find).Some? {
          var i :| 0 <= i < n && LastFound(init, find) == find(init[i])
                   && (forall j :: i < j < n ==> find(init[j]).None?);
          assert init[i] == lines[i];
          forall j | i < j < |lines| ensures find(lines[j]).None? {
            if j < n {
              assert init[j] == lines[j];
            }
          }
        }
      }
    }
  }

  /** `LastFound` finds nothing exactly when `find` finds nothing on any
      line. */
  lemma {:induction false} LastFoundAbsent<T>(lines: seq<string>, find: string -> Option<T>)
    ensures LastFound(lines, find).None? <==> forall i :: 0 <= i < |lines| ==> find(lines[i]).None?
    decreases |lines|
  {
    if |lines| > 0 {
      var n := |lines| - 1;
      var init := lines[..n];
      LastFoundAbsent(init, find);
      assert forall i :: 0 <= i < n ==> init[i] == lines[i];
    }
  }
}

=== FILE: model_parser.dfy ===
/**
 The SMT-LIB2 statistics scanner: one pass over the lines of a model that
 classifies every line as comment, blank or code, counts `define-fun`
 commands among the code lines, and on the first Rotor signature line marks
 the model as Rotor-generated and runs the header parser over the whole
 file. The BTOR2 variant is a stub that computes nothing.
 */
module ModelParser {
  import opened Wrappers
  import opened Patterns
  import opened HeaderFields
  import opened HeaderTable
  import opened RotorHeader

  /** The statistics dictionary that `parse` returns. */
  datatype Stats = Stats(
    totalLines: nat,
    commentLines: nat,
    codeLines: nat,
    blankLines: nat,
    defineCount: nat,
    isRotorGenerated: bool)

  /** The dictionary every call starts from. */
  const ZeroStats := Stats(0, 0, 0, 0, 0, false)

  /** What one call of `parse` produces: the statistics, the parser's
      `rotor_header` slot afterwards, and how many times the header parser
      ran during the call. */
  datatype Outcome = Outcome(stats: Stats, rotorHeader: Option<Header>, headerCalls: nat)

  /** One iteration of the line loop. The signature test comes first and
      only while no signature has been seen, and then calls the header
      parser `parseHeader` on the whole file; then the line is counted and
      classified, comment before blank before code. */
  function Step(o: Outcome, line: string, file: seq<string>, parseHeader: seq<string> -> Header): Outcome {
    var o1 :=
      if !o.stats.isRotorGenerated && IsSignature(line) then
        Outcome(o.stats.(isRotorGenerated := true), Some(parseHeader(file)), o.headerCalls + 1)
      else o;
    var s := o1.stats.(totalLines := o1.stats.totalLines + 1);
    var s' :=
      if IsComment(line) then s.(commentLines := s.commentLines + 1)
      else if IsBlank(line) then s.(blankLines := s.blankLines + 1)
      else s.(codeLines := s.codeLines + 1,
              defineCount := s.defineCount + if IsDefineFun(line) then 1 else 0);
    o1.(stats := s')
  }

  /** The first `n` lines of `file` scanned with the header parser
      `parseHeader`, starting from zeroed counters and the parser's earlier
      `rotor_header` value `prior`. After any prefix the three classes
      partition the lines read and no more define-fun commands than code
      lines are counted. */
  function Scan(file: seq<string>, n: nat, prior: Option<Header>, parseHeader: seq<string> -> Header): (r: Outcome)
    requires n <= |file|
    ensures r.stats.totalLines == n
    ensures r.stats.totalLines == r.stats.commentLines + r.stats.blankLines + r.stats.codeLines
    ensures r.stats.defineCount <= r.stats.codeLines
    decreases n
  {
    if n == 0 then Outcome(ZeroStats, prior, 0)
    else Step(Scan(file, n - 1, prior, parseHeader), file[n - 1], file, parseHeader)
  }

  /** After any prefix, the model is marked as Rotor-generated exactly when
      a signature line was read. */
  lemma {:induction false} ScanSignature(file: seq<string>, n: nat, prior: Option<Header>, parseHeader: seq<string> -> Header)
    requires n <= |file|
    ensures Scan(file, n, prior, parseHeader).stats.isRotorGenerated <==> exists i :: 0 <= i < n && IsSignature(file[i])
    decreases n
  {
    if n > 0 {
      var o := Scan(file, n - 1, prior, parseHeader);
      var last := file[n - 1];
      StepSignature(o, last, file, parseHeader);
      assert Scan(file, n, prior, parseHeader) == Step(o, last, file, parseHeader);
      ScanSignature(file, n - 1, prior, parseHeader);
      if o.stats.isRotorGenerated {
        var i :| 0 <= i < n - 1 && IsSignature(file[i]);
        assert 0 <= i < n && IsSignature(file[i]);
      } else if IsSignature(last) {
        assert 0 <= n - 1 < n && IsSignature(file[n - 1]);
      } else {
        forall i | 0 <= i < n ensures !IsSignature(file[i]) {
          if i < n - 1 {
            assert !(0 <= i < n - 1 && IsSignature(file[i]));
          }
        }
      }
    }
  }

  /** A step marks the model as Rotor-generated when it already was or the
      line is a signature. */
  lemma StepSignature(o: Outcome, line: string, file: seq<string>, parseHeader: seq<string> -> Header)
    ensures Step(o, line, file, parseHeader).stats.isRotorGenerated == (o.stats.isRotorGenerated || IsSignature(line))
  {
  }

  /** Once a signature has been read the header parser has run exactly
      once, on the whole file; before that it has never run and the earlier
      header is still in place. */
  lemma {:induction false} ScanHeaderCalls(file: seq<string>, n: nat, prior: Option<Header>, parseHeader: seq<string> -> Header)
    requires n <= |file|
    ensures var r := Scan(file, n, prior, parseHeader);
      && r.headerCalls == (if r.stats.isRotorGenerated then 1 else 0)
      && r.rotorHeader == if r.stats.isRotorGenerated then Some(parseHeader(file)) else prior
    decreases n
  {
    if n > 0 {
      var o := Scan(file, n - 1, prior, parseHeader);
      assert Scan(file, n, prior, parseHeader) == Step(o, file[n - 1], file, parseHeader);
      ScanHeaderCalls(file, n - 1, prior, parseHeader);
    }
  }

  /** `SMT2ModelParser.parse` over the lines of a model file. `prior` is
      the parser's `rotor_header` before the call: `None` for a fresh
      parser, and left untouched when the file has no signature. */
  function Parse(file: seq<string>, prior: Option<Header>): (r: Outcome)
    ensures r.stats.totalLines == |file|
    ensures r.stats.totalLines == r.stats.commentLines + r.stats.blankLines + r.stats.codeLines
    ensures r.stats.defineCount <= r.stats.codeLines
    ensures r.stats.isRotorGenerated <==> exists i :: 0 <= i < |file| && IsSignature(file[i])
    ensures r.headerCalls <= 1
    ensures r.headerCalls == 1 <==> r.stats.isRotorGenerated
    ensures r.rotorHeader == if r.stats.isRotorGenerated then Some(ParseHeader(file)) else prior
  {
    ScanSignature(file, |file|, prior, ParseHeader);
    ScanHeaderCalls(file, |file|, prior, ParseHeader);
    Scan(file, |file|, prior, ParseHeader)
  }

  /** An empty file gives the zeroed dictionary and leaves the parser's
      header as it was. */
  lemma ParseEmpty(prior: Option<Header>)
    ensures Parse([], prior) == Outcome(ZeroStats, prior, 0)
  {
  }

  /** `BTORModelParser.parse`: a stub that returns nothing for any file. */
  function BtorParse(file: seq<string>): (r: Option<Stats>)
    ensures r.None?
  {
    None
  }

  /* ---------------------------------------------------------------------
     Properties of the scan
     --------------------------------------------------------------------- */

  /** Each line raises the line total by one and exactly one of the three
      class counters by one. A comment line (even one indented before its
      semicolon) is counted as a comment and never as blank, and only a
      code line can raise the define-fun count. */
  lemma StepCountsOneClass(o: Outcome, line: string, file: seq<string>, parseHeader: seq<string> -> Header)
    ensures var r := Step(o, line, file, parseHeader).stats; var s := o.stats;
      && r.totalLines == s.totalLines + 1
      && r.commentLines + r.blankLines + r.codeLines == s.commentLines + s.blankLines + s.codeLines + 1
      && r.commentLines >= s.commentLines && r.blankLines >= s.blankLines && r.codeLines >= s.codeLines
      && (r.commentLines > s.commentLines <==> IsComment(line))
      && (r.blankLines > s.blankLines <==> IsBlank(line))
      && (r.codeLines > s.codeLines <==> IsCode(line))
      && (r.defineCount > s.defineCount ==> IsCode(line))
  {
    if IsComment(line) {
      CommentIsNotBlank(line);
    }
  }

  /** How many lines of `lines` satisfy `p`, counted front to back. */
  function CountIf(lines: seq<string>, p: string -> bool): (c: nat)
    ensures c <= |lines|
    decreases |lines|
  {
    if |lines| == 0 then 0
    else (if p(lines[0]) then 1 else 0) + CountIf(lines[1..], p)
  }

  /** Counting a sequence extended by one line. */
  lemma {:induction false} CountIfSnoc(lines: seq<string>, line: string, p: string -> bool)
    ensures CountIf(lines + [line], p) == CountIf(lines, p) + if p(line) then 1 else 0
    decreases |lines|
  {
    if |lines| > 0 {
      assert (lines + [line])[1..] == lines[1..] + [line];
      CountIfSnoc(lines[1..], line, p);
    }
  }

  /** After any prefix, each counter equals the number of lines read so far
      that satisfy the matching line predicate. Comment and blank lines are
      disjoint and every define-fun line is a code line, so the blank and
      define-fun counts need no extra condition. */
  lemma {:induction false} ScanCounts(file: seq<string>, n: nat, prior: Option<Header>, parseHeader: seq<string> -> Header)
    requires n <= |file|
    ensures var s := Scan(file, n, prior, parseHeader).stats;
      && s.commentLines == CountIf(file[..n], IsComment)
      && s.blankLines == CountIf(file[..n], IsBlank)
      && s.codeLines == CountIf(file[..n], IsCode)
      && s.defineCount == CountIf(file[..n], IsDefineFun)
    decreases n
  {
    if n > 0 {
      var line, o := file[n - 1], Scan(file, n - 1, prior, parseHeader);
      var r := Scan(file, n, prior, parseHeader);
      assert r == Step(o, line, file, parseHeader);
      StepTally(o, line, file, parseHeader);
      ScanCounts(file, n - 1, prior, parseHeader);
      TakeLast(file, n);
      CountStep(o.stats.commentLines, r.stats.commentLines, file[..n - 1], line, IsComment, IsComment(line));
      CountStep(o.stats.blankLines, r.stats.blankLines, file[..n - 1], line, IsBlank, IsBlank(line));
      CountStep(o.stats.codeLines, r.stats.codeLines, file[..n - 1], line, IsCode, IsCode(line));
      CountStep(o.stats.defineCount, r.stats.defineCount, file[..n - 1], line, IsDefineFun, IsDefineFun(line));
    }
  }

  /** A prefix one element longer is the shorter prefix plus that element. */
  lemma TakeLast<T>(s: seq<T>, n: nat)
    requires 0 < n <= |s|
    ensures s[..n] == s[..n - 1] + [s[n - 1]]
  {
  }

  /** A counter that kept the count of `lines` and went up by one exactly
      when `line` satisfies `p` keeps the count of `lines + [line]`. */
  lemma CountStep(before: nat, after: nat, lines: seq<string>, line: string, p: string -> bool, b: bool)
    requires before == CountIf(lines, p)
    requires p(line) == b && after == before + if b then 1 else 0
    ensures after == CountIf(lines + [line], p)
  {
    CountIfSnoc(lines, line, p);
  }

  /** A step adds one to each counter whose line predicate holds. */
  lemma StepTally(o: Outcome, line: string, file: seq<string>, parseHeader: seq<string> -> Header)
    ensures var r := Step(o, line, file, parseHeader).stats; var s := o.stats;
      && r.commentLines == s.commentLines + (if IsComment(line) then 1 else 0)
      && r.blankLines == s.blankLines + (if IsBlank(line) then 1 else 0)
      && r.codeLines == s.codeLines + (if IsCode(line) then 1 else 0)
      && r.defineCount == s.defineCount + (if IsDefineFun(line) then 1 else 0)
  {
    if IsComment(line) {
      CommentIsNotBlank(line);
    }
    if IsDefineFun(line) {
      DefineFunIsCode(line);
    }
  }

  /** The counters of a whole parse, each as a count of matching lines. */
  lemma ParseCounts(file: seq<string>, prior: Option<Header>)
    ensures var s := Parse(file, prior).stats;
      && s.commentLines == CountIf(file, IsComment)
      && s.blankLines == CountIf(file, IsBlank)
      && s.codeLines == CountIf(file, IsCode)
      && s.defineCount == CountIf(file, IsDefineFun)
  {
    ScanCounts(file, |file|, prior, ParseHeader);
    assert file[..|file|] == file;
  }

  /** The statistics and the number of header-parser calls do not depend on
      what the parser held before: every call starts from zeroed counters. */
  lemma {:induction false} ScanIgnoresPrior(file: seq<string>, n: nat, p1: Option<Header>, p2: Option<Header>,
                                            parseHeader: seq<string> -> Header)
    requires n <= |file|
    ensures Scan(file, n, p1, parseHeader).stats == Scan(file, n, p2, parseHeader).stats
    ensures Scan(file, n, p1, parseHeader).headerCalls == Scan(file, n, p2, parseHeader).headerCalls
    decreases n
  {
    if n > 0 {
      var o1, o2 := Scan(file, n - 1, p1, parseHeader), Scan(file, n - 1, p2, parseHeader);
      ScanIgnoresPrior(file, n - 1, p1, p2, parseHeader);
      StepIgnoresHeader(o1, o2, file[n - 1], file, parseHeader);
      assert Scan(file, n, p1, parseHeader) == Step(o1, file[n - 1], file, parseHeader);
      assert Scan(file, n, p2, parseHeader) == Step(o2, file[n - 1], file, parseHeader);
    }
  }

  /** A step's counters do not depend on the header held before it. */
  lemma StepIgnoresHeader(o1: Outcome, o2: Outcome, line: string, file: seq<string>, parseHeader: seq<string> -> Header)
    requires o1.stats == o2.stats && o1.headerCalls == o2.headerCalls
    ensures Step(o1, line, file, parseHeader).stats == Step(o2, line, file, parseHeader).stats
    ensures Step(o1, line, file, parseHeader).headerCalls == Step(o2, line, file, parseHeader).headerCalls
  {
  }

  /** Calling `parse` a second time on the same parser and the same lines
      gives the same statistics and leaves the same header in place. */
  lemma ParseTwice(file: seq<string>, prior: Option<Header>)
    ensures var first := Parse(file, prior);
      var second := Parse(file, first.rotorHeader);
      second.stats == first.stats && second.rotorHeader == first.rotorHeader
  {
    var first := Parse(file, prior);
    ScanIgnoresPrior(file, |file|, prior, first.rotorHeader, ParseHeader);
  }

  /** A fresh parser holds a header after `parse` exactly when the file has
      a Rotor signature line, and then it is the header of the whole file. */
  lemma FreshParserHeader(file: seq<string>)
    ensures var r := Parse(file, None);
      && (r.rotorHeader.Some? <==> exists i :: 0 <= i < |file| && IsSignature(file[i]))
      && (r.rotorHeader.Some? ==> r.rotorHeader.value == ParseHeader(file))
  {
  }
}

=== FILE: patterns.dfy ===
/**
 The fixed regular expressions of the SMT-LIB2 model parsers, each written
 out as an explicit string predicate instead of going through a regex
 engine.

 Line classifiers (matched at the start of a line):
 - comment line        `^\s*;`
 - blank line          `^\s*$`
 - define-fun command  `^\s*\(define-fun`, case-insensitive
 - Rotor signature     `^;\s*generated\s+SMT-LIB\s+file\s+(.+\.smt2)`

 Header field patterns (found anywhere in a line, like Python's
 `re.search`) come in four shapes, captured by `Pattern`.
 */
module Patterns {
  import opened Wrappers
  import opened Text

  /* ---------------------------------------------------------------------
     Line classifiers
     --------------------------------------------------------------------- */

  /** `^\s*;`: optional leading whitespace, then a semicolon. */
  predicate IsComment(s: string) {
    var k := Span(s, 0, IsSpace);
    k < |s| && s[k] == ';'
  }

  /** `^\s*$`: the line holds nothing but whitespace (possibly nothing). */
  predicate IsBlank(s: string) {
    Span(s, 0, IsSpace) == |s|
  }

  /** A line that is neither a comment nor blank: what the statistics call a
      code line and what ends the header. */
  predicate IsCode(s: string) {
    !IsComment(s) && !IsBlank(s)
  }

  const DefineFun := "(define-fun"

  /** `^\s*\(define-fun` under `re.IGNORECASE`. */
  predicate IsDefineFun(s: string) {
    CaselessLiteralAt(s, Span(s, 0, IsSpace), DefineFun)
  }

  /** The comment test is the regex `^\s*;`: some prefix of whitespace is
      followed by a semicolon. */
  lemma CommentMeaning(s: string)
    ensures IsComment(s) <==>
      exists k :: 0 <= k < |s| && (forall j :: 0 <= j < k ==> IsSpace(s[j])) && s[k] == ';'
  {
  }

  /** The blank test is the regex `^\s*$`: every character is whitespace. */
  lemma BlankMeaning(s: string)
    ensures IsBlank(s) <==> forall j :: 0 <= j < |s| ==> IsSpace(s[j])
  {
  }

  /** A comment line is never blank: a semicolon is not whitespace. */
  lemma CommentIsNotBlank(s: string)
    requires IsComment(s)
    ensures !IsBlank(s)
  {
  }

  /** The define-fun test is the regex `^\s*\(define-fun` with IGNORECASE:
      some prefix of whitespace is followed by `(define-fun` in any case. */
  lemma DefineFunMeaning(s: string)
    ensures IsDefineFun(s) <==>
      exists k :: 0 <= k <= |s| && (forall j :: 0 <= j < k ==> IsSpace(s[j])) && CaselessLiteralAt(s, k, DefineFun)
  {
    var k := Span(s, 0, IsSpace);
    forall k' | 0 <= k' <= |s| && (forall j :: 0 <= j < k' ==> IsSpace(s[j])) && CaselessLiteralAt(s, k', DefineFun)
      ensures k' == k
    {
      assert CaselessEq(s[k' + 0], DefineFun[0]);
    }
  }

  /** A define-fun line is always a code line: its first non-blank character
      is `(`, which is neither whitespace nor a semicolon. */
  lemma DefineFunIsCode(s: string)
    requires IsDefineFun(s)
    ensures IsCode(s)
  {
    var k := Span(s, 0, IsSpace);
    assert CaselessEq(s[k + 0], DefineFun[0]);
  }

  /** The tail `\s+(.+\.smt2)` of the Rotor signature, starting at index `f`:
      at least one whitespace character, then at least one character other
      than a line feed, then the literal `.smt2`. */
  predicate SmtPathTail(s: string, f: nat) {
    exists a: nat, j: nat :: f < a < j && j + 5 <= |s|
      && (forall i :: f <= i < a ==> IsSpace(s[i]))
      && PathBody(s, a, j)
      && LiteralAt(s, j, ".smt2")
  }

  /** `s[a..j]` is a non-empty stretch without a line feed: the `.+` of the
      signature's path group. */
  predicate PathBody(s: string, a: nat, j: nat) {
    a < j <= |s| && forall i :: a <= i < j ==> NotNewline(s[i])
  }

  /** `^;\s*generated\s+SMT-LIB\s+file\s+(.+\.smt2)` matched at the start of
      the line: the semicolon must sit in column 0. None of the keywords
      begins with whitespace, so each `\s*` / `\s+` before a keyword takes
      the whole whitespace run. */
  predicate IsSignature(s: string)
    ensures IsSignature(s) ==> |s| > 0 && s[0] == ';'
    ensures IsSignature(s) ==> IsComment(s)
  {
    && |s| > 0 && s[0] == ';'
    && var a := Span(s, 1, IsSpace);
    && LiteralAt(s, a, "generated")
    && var b := Span(s, a + 9, IsSpace);
    && b > a + 9 && LiteralAt(s, b, "SMT-LIB")
    && var c := Span(s, b + 7, IsSpace);
    && c > b + 7 && LiteralAt(s, c, "file")
    && SmtPathTail(s, c + 4)
  }

  /** `\s*lit` read from index `i`: whitespace from `i` up to `a`, where
      the literal `lit` starts. */
  predicate SpacesThen(s: string, i: nat, a: nat, lit: string) {
    i <= a && LiteralAt(s, a, lit) && forall j :: i <= j < a ==> IsSpace(s[j])
  }

  /** A whitespace run up to a keyword is exactly the run `Span` takes,
      since the keyword does not start with whitespace. */
  lemma SpanToKeyword(s: string, i: nat, a: nat, lit: string)
    requires SpacesThen(s, i, a, lit) && |lit| > 0 && !IsSpace(lit[0])
    ensures Span(s, i, IsSpace) == a
  {
    assert s[a] == lit[0];
  }

  /** `s` read as `;\s*generated\s+SMT-LIB\s+file\s+(.+\.smt2)` with the
      three keywords at `a`, `b` and `c`: a semicolon in column 0, then
      whitespace runs (the last two non-empty) before each keyword, then the
      path tail after `file`. */
  predicate SignatureSplit(s: string, a: nat, b: nat, c: nat) {
    && |s| > 0 && s[0] == ';'
    && SpacesThen(s, 1, a, "generated")
    && a + 9 < b && SpacesThen(s, a + 9, b, "SMT-LIB")
    && b + 7 < c && SpacesThen(s, b + 7, c, "file")
    && SmtPathTail(s, c + 4)
  }

  /** The signature test is the regex
      `^;\s*generated\s+SMT-LIB\s+file\s+(.+\.smt2)`: the line splits into
      its pieces at some choice of keyword positions. */
  lemma SignatureMeaning(s: string)
    ensures IsSignature(s) <==> exists a: nat, b: nat, c: nat :: SignatureSplit(s, a, b, c)
  {
    if IsSignature(s) {
      SignatureParts(s);
    }
    if exists a: nat, b: nat, c: nat :: SignatureSplit(s, a, b, c) {
      var a: nat, b: nat, c: nat :| SignatureSplit(s, a, b, c);
      SignatureFromParts(s, a, b, c);
    }
  }

  /** A signature line splits at the ends of its whitespace runs. */
  lemma SignatureParts(s: string)
    requires IsSignature(s)
    ensures var a := Span(s, 1, IsSpace); var b := Span(s, a + 9, IsSpace); var c := Span(s, b + 7, IsSpace);
      SignatureSplit(s, a, b, c)
  {
  }

  /** Any split of a line into the signature's pieces is the one the
      signature test computes. */
  lemma SignatureFromParts(s: string, a: nat, b: nat, c: nat)
    requires SignatureSplit(s, a, b, c)
    ensures IsSignature(s)
  {
    SpanToKeyword(s, 1, a, "generated");
    SpanToKeyword(s, a + 9, b, "SMT-LIB");
    SpanToKeyword(s, b + 7, c, "file");
    SignatureAtSpans(s, a, b, c);
  }

  /** The signature test succeeds once its three whitespace runs are known
      to end at keywords. */
  lemma SignatureAtSpans(s: string, a: nat, b: nat, c: nat)
    requires |s| > 0 && s[0] == ';'
    requires Span(s, 1, IsSpace) == a && LiteralAt(s, a, "generated")
    requires Span(s, a + 9, IsSpace) == b && b > a + 9 && LiteralAt(s, b, "SMT-LIB")
    requires Span(s, b + 7, IsSpace) == c && c > b + 7 && LiteralAt(s, c, "file")
    requires SmtPathTail(s, c + 4)
    ensures IsSignature(s)
  {
  }

  /** A line indented before its semicolon is never a Rotor signature. */
  lemma IndentedLineIsNotSignature(s: string)
    requires |s| > 0 && IsSpace(s[0])
    ensures !IsSignature(s)
  {
  }

  /* ---------------------------------------------------------------------
     Header field patterns
     --------------------------------------------------------------------- */

  /** The four shapes of the header regexes:
      - `Digits(lead, trail)`     is `lead(\d+)trail`
      - `GapDigits(lead, mid)`    is `lead.*mid(\d+)`
      - `Rest(lead)`              is `lead(.+)`
      - `Marker(lead)`            is `lead`, with no capture group */
  datatype Pattern =
    | Digits(lead: string, trail: string)
    | GapDigits(lead: string, mid: string)
    | Rest(lead: string)
    | Marker(lead: string)
  {
    /** The pattern captures a `(\d+)` group. */
    predicate Numeric() {
      Digits? || GapDigits?
    }

    /** After a greedy `\d+`, a trail that starts with a digit could make
        Python backtrack into a shorter run; the table never does that. */
    predicate WellFormed() {
      Digits? ==> |trail| == 0 || !IsDigit(trail[0])
    }
  }

  /** What a successful match yields: `match.group(1)` when the pattern has
      a group, `None` when it has none. */
  datatype Match = Match(group: Option<string>)

  /** `s[i..e]` is a non-empty run of digits. */
  predicate DigitsBetween(s: string, i: nat, e: nat) {
    i < e <= |s| && forall j :: i <= j < e ==> IsDigit(s[j])
  }

  /** The longest run of digits starting at `i`: the text a greedy `\d+`
      captures when it is the last item of the pattern. */
  function DigitRun(s: string, i: nat): (d: string)
    requires i <= |s|
    ensures |d| <= |s| - i && d == s[i..i + |d|]
    ensures forall j :: 0 <= j < |d| ==> IsDigit(d[j])
    ensures i + |d| < |s| ==> !IsDigit(s[i + |d|])
  {
    s[i..Span(s, i, IsDigit)]
  }

  /** `lead(\d+)trail` tried at index `p`: the greedy run of digits after
      `lead`, which must be non-empty and followed by `trail`. */
  function DigitsAt(s: string, p: nat, lead: string, trail: string): (r: Option<Match>)
    requires p <= |s|
    ensures r.Some? ==> LiteralAt(s, p, lead)
    ensures r.Some? ==> r.value.group.Some? && IsDigits(r.value.group.value)
  {
    if !LiteralAt(s, p, lead) then None
    else
      var q := p + |lead|;
      var e := Span(s, q, IsDigit);
      if e > q && LiteralAt(s, e, trail) then Some(Match(Some(s[q..e]))) else None
  }

  /** `DigitsAt` is the regex `lead(\d+)trail` at `p`: it matches exactly
      when some non-empty digit run after `lead` is followed by `trail`,
      and captures the longest digit run. A trail that does not start with
      a digit leaves Python no shorter run to backtrack into. */
  lemma DigitsAtMeaning(s: string, p: nat, lead: string, trail: string)
    requires p <= |s|
    requires |trail| == 0 || !IsDigit(trail[0])
    ensures DigitsAt(s, p, lead, trail).Some? <==>
      LiteralAt(s, p, lead) && exists e: nat :: DigitsBetween(s, p + |lead|, e) && LiteralAt(s, e, trail)
    ensures DigitsAt(s, p, lead, trail).Some? ==>
      DigitsAt(s, p, lead, trail).value.group == Some(DigitRun(s, p + |lead|))
  {
    if LiteralAt(s, p, lead) {
      var q := p + |lead|;
      var e := Span(s, q, IsDigit);
      forall e': nat | DigitsBetween(s, q, e') && LiteralAt(s, e', trail)
        ensures e > q && LiteralAt(s, e, trail)
      {
        assert IsDigit(s[q]);
      }
      if e > q && LiteralAt(s, e, trail) {
        assert DigitsBetween(s, q, e);
      }
    }
  }

  /** `mid(\d+)` found at index `e`: the literal `mid` followed by a digit. */
  predicate MidDigitAt(s: string, e: nat, mid: string) {
    LiteralAt(s, e, mid) && e + |mid| < |s| && IsDigit(s[e + |mid|])
  }

  /** `.*mid(\d+)` after a prefix ending at `w` can resume at index `e`: the
      gap `s[w..e]` holds no line feed and `mid` plus a digit follow it. */
  predicate GapAt(s: string, w: nat, e: nat, mid: string) {
    w <= e <= |s| && (forall j :: w <= j < e ==> NotNewline(s[j])) && MidDigitAt(s, e, mid)
  }

  /** `lead.*mid(\d+)` tried at index `p` can take the gap up to index `e`. */
  predicate GapMatch(s: string, p: nat, lead: string, e: nat, mid: string) {
    LiteralAt(s, p, lead) && GapAt(s, p + |lead|, e, mid)
  }

  /** The largest `e` in `[lo, hi]` at which `mid` plus a digit occurs. */
  function LastMid(s: string, lo: nat, hi: nat, mid: string): (r: Option<nat>)
    requires lo <= hi <= |s|
    ensures r.Some? ==> lo <= r.value <= hi && MidDigitAt(s, r.value, mid)
    ensures r.Some? ==> forall e :: r.value < e <= hi ==> !MidDigitAt(s, e, mid)
    ensures r.None? ==> forall e :: lo <= e <= hi ==> !MidDigitAt(s, e, mid)
    decreases hi - lo
  {
    if MidDigitAt(s, hi, mid) then Some(hi)
    else if hi == lo then None
    else LastMid(s, lo, hi - 1, mid)
  }

  /** `lead.*mid(\d+)` tried at index `p`. The greedy `.*` backs off from
      the end of the line, so the match resumes at the LAST occurrence of
      `mid` plus a digit that no line feed separates from `lead`. */
  function GapDigitsAt(s: string, p: nat, lead: string, mid: string): (r: Option<Match>)
    requires p <= |s|
    ensures r.Some? ==> LiteralAt(s, p, lead)
    ensures r.Some? ==> r.value.group.Some? && IsDigits(r.value.group.value)
  {
    if !LiteralAt(s, p, lead) then None
    else
      var w := p + |lead|;
      match LastMid(s, w, Span(s, w, NotNewline), mid)
      case None => None
      case Some(e) =>
        var d := DigitRun(s, e + |mid|);
        assert d[0] == s[e + |mid|];
        Some(Match(Some(d)))
  }

  /** `GapDigitsAt` is the regex `lead.*mid(\d+)` at `p`: it matches exactly
      when some gap fits, and then captures the digit run after the last
      gap that fits. */
  lemma GapDigitsAtMeaning(s: string, p: nat, lead: string, mid: string)
    requires p <= |s|
    ensures GapDigitsAt(s, p, lead, mid).Some? <==> exists e: nat :: GapMatch(s, p, lead, e, mid)
    ensures GapDigitsAt(s, p, lead, mid).Some? ==> exists e: nat ::
      && GapMatch(s, p, lead, e, mid)
      && (forall e': nat :: e < e' <= |s| ==> !GapMatch(s, p, lead, e', mid))
      && GapDigitsAt(s, p, lead, mid).value.group == Some(DigitRun(s, e + |mid|))
  {
    GapDigitsAtFound(s, p, lead, mid);
    GapDigitsAtIsLast(s, p, lead, mid);
  }

  /** `GapDigitsAt` matches exactly when some gap fits. */
  lemma GapDigitsAtFound(s: string, p: nat, lead: string, mid: string)
    requires p <= |s|
    ensures GapDigitsAt(s, p, lead, mid).Some? <==> exists e: nat :: GapMatch(s, p, lead, e, mid)
  {
    if LiteralAt(s, p, lead) {
      var w := p + |lead|;
      var limit := Span(s, w, NotNewline);
      match LastMid(s, w, limit, mid)
      case None =>
        forall e: nat | GapMatch(s, p, lead, e, mid) ensures false {
        }
      case Some(e) =>
        assert GapMatch(s, p, lead, e, mid);
    }
  }

  /** A match of `GapDigitsAt` resumes after the last gap that fits. */
  lemma GapDigitsAtIsLast(s: string, p: nat, lead: string, mid: string)
    requires p <= |s|
    ensures GapDigitsAt(s, p, lead, mid).Some? ==> exists e: nat ::
      && GapMatch(s, p, lead, e, mid)
      && (forall e': nat :: e < e' <= |s| ==> !GapMatch(s, p, lead, e', mid))
      && GapDigitsAt(s, p, lead, mid).value.group == Some(DigitRun(s, e + |mid|))
  {
    if LiteralAt(s, p, lead) {
      var w := p + |lead|;
      var limit := Span(s, w, NotNewline);
      match LastMid(s, w, limit, mid)
      case None =>
      case Some(e) =>
        assert GapMatch(s, p, lead, e, mid);
        forall e': nat | e < e' <= |s| && GapMatch(s, p, lead, e', mid) ensures false {
        }
    }
  }

  /** On a line `lead + gap + mid + d`, where the gap holds no line feed,
      `mid` holds neither a line feed nor a digit and `d` is a digit run,
      `lead.*mid(\d+)` captures exactly `d`. */
  lemma GapDigitsAtEnd(lead: string, gap: string, mid: string, d: string)
    requires forall j :: 0 <= j < |gap| ==> NotNewline(gap[j])
    requires |mid| > 0 && forall j :: 0 <= j < |mid| ==> NotNewline(mid[j]) && !IsDigit(mid[j])
    requires IsDigits(d)
    ensures GapDigitsAt(lead + gap + mid + d, 0, lead, mid) == Some(Match(Some(d)))
  {
    var s := lead + gap + mid + d;
    var w, e := |lead|, |lead| + |gap|;
    var q := e + |mid|;
    GapLineLayout(lead, gap, mid, d);
    LastMidAtEnd(s, w, e, mid);
    assert LastMid(s, w, |s|, mid) == Some(e);
    assert Span(s, q, IsDigit) == |s|;
    assert s[q..|s|] == d;
  }

  /** Where the pieces of `lead + gap + mid + d` sit. */
  lemma GapLineLayout(lead: string, gap: string, mid: string, d: string)
    requires forall j :: 0 <= j < |gap| ==> NotNewline(gap[j])
    requires |mid| > 0 && forall j :: 0 <= j < |mid| ==> NotNewline(mid[j]) && !IsDigit(mid[j])
    requires IsDigits(d)
    ensures var s, e := lead + gap + mid + d, |lead| + |gap|;
      && LiteralAt(s, 0, lead)
      && Span(s, |lead|, NotNewline) == |s|
      && MidDigitAt(s, e, mid)
      && (forall j :: e <= j < e + |mid| ==> !IsDigit(s[j]))
      && (forall j :: e + |mid| <= j < |s| ==> IsDigit(s[j]))
  {
    var s := lead + gap + mid + d;
    var w, e := |lead|, |lead| + |gap|;
    var q := e + |mid|;
    assert forall j :: w <= j < e ==> s[j] == gap[j - w];
    assert forall j :: e <= j < q ==> s[j] == mid[j - e];
    assert forall j :: q <= j < |s| ==> s[j] == d[j - q];
    assert s[..w] == lead;
    assert s[e..q] == mid;
  }

  /** When `mid` plus a digit sits at `e`, `mid` holds no digit and only
      digits follow it, `e` is the last such place. */
  lemma LastMidAtEnd(s: string, w: nat, e: nat, mid: string)
    requires w <= e && MidDigitAt(s, e, mid) && |mid| > 0
    requires forall j :: e <= j < e + |mid| ==> !IsDigit(s[j])
    requires forall j :: e + |mid| <= j < |s| ==> IsDigit(s[j])
    ensures LastMid(s, w, |s|, mid) == Some(e)
  {
    var q := e + |mid|;
    forall e' | e < e' <= |s| ensures !MidDigitAt(s, e', mid) {
      if e' < q {
        assert mid[q - e'] == s[e + q - e'];
        assert !IsDigit(mid[q - e']) && IsDigit(s[q]);
      } else if e' < |s| {
        assert !IsDigit(mid[0]) && IsDigit(s[e']);
      }
    }
  }

  /** On a line `lead + d + rest` whose `rest` does not start with a
      digit, `lead(\d+)` captures exactly the digit run `d`. */
  lemma DigitsAtRun(lead: string, d: string, rest: string)
    requires IsDigits(d)
    requires |rest| == 0 || !IsDigit(rest[0])
    ensures DigitsAt(lead + d + rest, 0, lead, "") == Some(Match(Some(d)))
  {
    var s := lead + d + rest;
    var q, e := |lead|, |lead| + |d|;
    assert s[..q] == lead;
    assert forall j :: q <= j < e ==> s[j] == d[j - q];
    if |rest| > 0 {
      assert s[e] == rest[0];
    }
    assert Span(s, q, IsDigit) == e;
    assert s[q..e] == d;
  }

  /** `lead(.+)` tried at index `p`: the group takes the rest of the line up
      to (not including) any line feed, and must not be empty. */
  function RestAt(s: string, p: nat, lead: string): (r: Option<Match>)
    requires p <= |s|
    ensures r.Some? ==> LiteralAt(s, p, lead) && r.value.group.Some?
    ensures r.Some? ==> |r.value.group.value| > 0
  {
    var q := p + |lead|;
    if LiteralAt(s, p, lead) && q < |s| && NotNewline(s[q]) then
      Some(Match(Some(s[q..Span(s, q, NotNewline)])))
    else
      None
  }

  /** `RestAt` is the regex `lead(.+)` at `p`: it matches exactly when a
      character other than a line feed follows `lead`, and captures the
      longest stretch without a line feed. */
  lemma RestAtMeaning(s: string, p: nat, lead: string)
    requires p <= |s|
    ensures RestAt(s, p, lead).Some? <==> LiteralAt(s, p, lead) && p + |lead| < |s| && NotNewline(s[p + |lead|])
    ensures RestAt(s, p, lead).Some? ==>
      var g := RestAt(s, p, lead).value.group.value;
      && p + |lead| + |g| <= |s| && g == s[p + |lead|..p + |lead| + |g|]
      && (forall j :: 0 <= j < |g| ==> NotNewline(g[j]))
      && (p + |lead| + |g| < |s| ==> !NotNewline(s[p + |lead| + |g|]))
  {
  }

  /** Python's `pattern.match(s, p)`: the pattern tried at index `p` only. */
  function TryAt(pat: Pattern, s: string, p: nat): (r: Option<Match>)
    requires p <= |s|
    ensures r.Some? ==> LiteralAt(s, p, pat.lead)
    ensures r.Some? ==> (r.value.group.None? <==> pat.Marker?)
    ensures r.Some? && pat.Numeric() ==> IsDigits(r.value.group.value)
  {
    match pat
    case Digits(lead, trail) => DigitsAt(s, p, lead, trail)
    case GapDigits(lead, mid) => GapDigitsAt(s, p, lead, mid)
    case Rest(lead) => RestAt(s, p, lead)
    case Marker(lead) => if LiteralAt(s, p, lead) then Some(Match(None)) else None
  }

  /** The pattern tried at every index of the line, from 0 to `|s|`. */
  function Attempts(pat: Pattern, s: string): (ms: seq<Option<Match>>)
    ensures |ms| == |s| + 1
    ensures forall p :: 0 <= p <= |s| ==> ms[p] == TryAt(pat, s, p)
  {
    seq(|s| + 1, p requires 0 <= p <= |s| => TryAt(pat, s, p))
  }

  /** The first index at or after `from` whose attempt succeeded. */
  function FirstSome(ms: seq<Option<Match>>, from: nat): (r: Option<nat>)
    requires from <= |ms|
    ensures r.Some? ==> from <= r.value < |ms| && ms[r.value].Some?
    decreases |ms| - from
  {
    if from == |ms| then None
    else if ms[from].Some? then Some(from)
    else FirstSome(ms, from + 1)
  }

  /** No attempt between `from` and the one `FirstSome` finds succeeded. */
  lemma {:induction false} FirstSomeIsFirst(ms: seq<Option<Match>>, from: nat)
    requires from <= |ms|
    ensures FirstSome(ms, from).Some? ==> forall q :: from <= q < FirstSome(ms, from).value ==> ms[q].None?
    decreases |ms| - from
  {
    if from < |ms| && ms[from].None? {
      FirstSomeIsFirst(ms, from + 1);
    }
  }

  /** When `FirstSome` finds nothing, no attempt from `from` on succeeded. */
  lemma {:induction false} FirstSomeNone(ms: seq<Option<Match>>, from: nat)
    requires from <= |ms|
    ensures FirstSome(ms, from).None? ==> forall q :: from <= q < |ms| ==> ms[q].None?
    decreases |ms| - from
  {
    if from < |ms| && ms[from].None? {
      FirstSomeNone(ms, from + 1);
    }
  }

  /** Python's `pattern.search(s)`: the leftmost match anywhere in the line. */
  function Search(pat: Pattern, s: string): (r: Option<Match>)
    ensures r.Some? ==> (r.value.group.None? <==> pat.Marker?)
    ensures r.Some? && pat.Numeric() ==> IsDigits(r.value.group.value)
  {
    var ms := Attempts(pat, s);
    match FirstSome(ms, 0)
    case None => None
    case Some(p) => ms[p]
  }

  /** A pattern that matches at the start of a line is found there. */
  lemma SearchAtStart(pat: Pattern, s: string)
    requires TryAt(pat, s, 0).Some?
    ensures Search(pat, s) == TryAt(pat, s, 0)
  {
    assert FirstSome(Attempts(pat, s), 0) == Some(0);
  }

  /** `Search` finds a match exactly when the pattern matches at some index,
      and then reports the match at the leftmost such index. */
  lemma SearchIsLeftmost(pat: Pattern, s: string)
    ensures Search(pat, s).Some? <==> exists p :: 0 <= p <= |s| && TryAt(pat, s, p).Some?
    ensures Search(pat, s).Some? ==> exists p ::
      && 0 <= p <= |s| && Search(pat, s) == TryAt(pat, s, p)
      && forall q :: 0 <= q < p ==> TryAt(pat, s, q).None?
  {
    FirstSomeIsFirst(Attempts(pat, s), 0);
    FirstSomeNone(Attempts(pat, s), 0);
  }

  /** A line that does not contain a pattern's leading literal anywhere is
      never matched by it. */
  lemma SearchNeedsLead(pat: Pattern, s: string)
    requires forall p :: 0 <= p <= |s| ==> !LiteralAt(s, p, pat.lead)
    ensures Search(pat, s).None?
  {
    SearchIsLeftmost(pat, s);
  }
}

=== FILE: rotor_header.dfy ===
/**
 The Rotor header extractor: the ordered table of thirteen header patterns,
 the field dispatch that writes a matched value into the header record,
 and the scan over the leading comment/blank block of an SMT-LIB2 model
 that stops at (and still reads) the first code line.
 */
module RotorHeader {
  import opened Wrappers
  import opened Text
  import opened Patterns
  import opened HeaderFields
  import opened HeaderTable
  import opened LineScan

  /** The header record. Numeric fields hold Python ints; every field is
      absent until a header line sets it. */
  datatype Header = Header(
    sourceFile: Option<string>,
    kmin: Option<int>,
    kmax: Option<int>,
    bytecodeSize: Option<int>,
    dataSize: Option<int>,
    virtualAddressSpace: Option<int>,
    codeWordSize: Option<int>,
    memoryWordSize: Option<int>,
    heapAllowance: Option<int>,
    stackAllowance: Option<int>,
    cores: Option<int>,
    bytesToRead: Option<int>,
    constantsPropagated: bool,
    commentsRemoved: bool,
    flags: seq<string>)

  /** A freshly constructed record. The record class is not part of this
      model; these defaults (every optional field absent, both booleans
      false, no flags) are an assumption about it. */
  const EmptyHeader := Header(
    None, None, None, None, None, None, None, None, None, None, None, None,
    false, false, [])

  /** The value a numeric field holds. */
  function Get(h: Header, f: Field): Option<int>
    requires f.Numeric()
  {
    match f
    case Kmin => h.kmin
    case Kmax => h.kmax
    case BytecodeSize => h.bytecodeSize
    case DataSize => h.dataSize
    case VirtualAddressSpace => h.virtualAddressSpace
    case CodeWordSize => h.codeWordSize
    case MemoryWordSize => h.memoryWordSize
    case HeapAllowance => h.heapAllowance
    case StackAllowance => h.stackAllowance
    case Cores => h.cores
    case BytesToRead => h.bytesToRead
  }

  /** Every numeric field that is set holds a non-negative value. */
  predicate NonNegative(h: Header) {
    forall f: Field :: f.Numeric() && Get(h, f).Some? ==> Get(h, f).value >= 0
  }

  /** `h'` agrees with `h` on every field other than `f`, and on the flags. */
  predicate Frame(h: Header, h': Header, f: Field) {
    && (f != SourceFile ==> h'.sourceFile == h.sourceFile)
    && (forall g: Field :: g.Numeric() && g != f ==> Get(h', g) == Get(h, g))
    && (f != ConstantsPropagated ==> h'.constantsPropagated == h.constantsPropagated)
    && (f != CommentsRemoved ==> h'.commentsRemoved == h.commentsRemoved)
    && h'.flags == h.flags
  }

  /** What the scan carries from line to line: the record being filled and
      the separate list of unrecognised marker flags. */
  datatype Acc = Acc(header: Header, flags: seq<string>)

  const EmptyAcc := Acc(EmptyHeader, [])

  /** A value the branch of `key` can store: numeric branches apply `int`
      to it, which needs a digit run (their `(\d+)` group always is one). */
  predicate Storable(key: string, value: Option<string>) {
    Branch(key).Some? && Branch(key).value.Numeric() ==> value.Some? && IsDigits(value.value)
  }

  /** The field dispatch for one matched table entry. */
  function SetHeaderField(acc: Acc, key: string, value: Option<string>): (r: Acc)
    requires Storable(key, value)
    ensures Branch(key).Some? ==> r.flags == acc.flags && Frame(acc.header, r.header, Branch(key).value)
    ensures Branch(key).Some? && Branch(key).value.Numeric() ==>
      Get(r.header, Branch(key).value) == Some(DigitsValue(value.value))
    ensures Branch(key) == Some(SourceFile) ==> r.header.sourceFile == value
    ensures Branch(key) == Some(ConstantsPropagated) ==> r.header.constantsPropagated
    ensures Branch(key) == Some(CommentsRemoved) ==> r.header.commentsRemoved
    ensures Branch(key).None? ==> r.header == acc.header && r.flags == acc.flags + [Normalize(key)]
  {
    var h := acc.header;
    match Branch(key)
    case None => acc.(flags := acc.flags + [Normalize(key)])
    case Some(f) =>
      var h' := match f
        case SourceFile => h.(sourceFile := value)
        case Kmin => h.(kmin := Some(DigitsValue(value.value)))
        case Kmax => h.(kmax := Some(DigitsValue(value.value)))
        case BytecodeSize => h.(bytecodeSize := Some(DigitsValue(value.value)))
        case DataSize => h.(dataSize := Some(DigitsValue(value.value)))
        case VirtualAddressSpace => h.(virtualAddressSpace := Some(DigitsValue(value.value)))
        case CodeWordSize => h.(codeWordSize := Some(DigitsValue(value.value)))
        case MemoryWordSize => h.(memoryWordSize := Some(DigitsValue(value.value)))
        case HeapAllowance => h.(heapAllowance := Some(DigitsValue(value.value)))
        case StackAllowance => h.(stackAllowance := Some(DigitsValue(value.value)))
        case Cores => h.(cores := Some(DigitsValue(value.value)))
        case BytesToRead => h.(bytesToRead := Some(DigitsValue(value.value)))
        case ConstantsPropagated => h.(constantsPropagated := true)
        case CommentsRemoved => h.(commentsRemoved := true);
      acc.(header := h')
  }

  /* ---------------------------------------------------------------------
     One line through the whole table
     --------------------------------------------------------------------- */

  /** `int(match.group(1))` for a match of a `(\d+)` pattern. */
  function GroupInt(m: Match): nat
    requires m.group.Some? && IsDigits(m.group.value)
  {
    DigitsValue(m.group.value)
  }

  /** The search of table entry `i` on one line. */
  function EntryMatch(i: nat, line: string): (r: Option<Match>)
    requires i < |HeaderPatterns|
    ensures r.Some? ==> (r.value.group.None? <==> HeaderPatterns[i].1.Marker?)
    ensures r.Some? && TableFields[i].Numeric() ==> r.value.group.Some? && IsDigits(r.value.group.value)
  {
    EntryShape(i);
    Search(HeaderPatterns[i].1, line)
  }

  /** Table entry `i` applied to one line: when its pattern is found, the
      dispatch receives the captured group, or `None` for a marker. Only
      the field the entry names can change. */
  function ApplyEntry(acc: Acc, line: string, i: nat): (r: Acc)
    requires i < |HeaderPatterns|
    ensures r.flags == acc.flags
    ensures Frame(acc.header, r.header, TableFields[i])
    ensures var f := TableFields[i]; var m := EntryMatch(i, line);
      f.Numeric() ==> Get(r.header, f) == (if m.Some? then Some(GroupInt(m.value)) else Get(acc.header, f))
    ensures var m := EntryMatch(i, line);
      TableFields[i] == SourceFile ==> r.header.sourceFile == (if m.Some? then m.value.group else acc.header.sourceFile)
    ensures TableFields[i] == CommentsRemoved ==>
      r.header.commentsRemoved == (acc.header.commentsRemoved || EntryMatch(i, line).Some?)
  {
    EntryShape(i);
    match EntryMatch(i, line)
    case None => acc
    case Some(m) => SetHeaderField(acc, HeaderPatterns[i].0, m.group)
  }

  /** Entries `i`, `i + 1`, ... of the table applied to one line, in table
      order. No table key falls through to the flag list and none is
      `constants`, so neither of those ever changes. */
  function ApplyFrom(acc: Acc, line: string, i: nat): (r: Acc)
    requires i <= |HeaderPatterns|
    ensures r.flags == acc.flags
    ensures r.header.flags == acc.header.flags
    ensures r.header.constantsPropagated == acc.header.constantsPropagated
    ensures NonNegative(acc.header) ==> NonNegative(r.header)
    decreases |HeaderPatterns| - i
  {
    if i == |HeaderPatterns| then acc
    else
      TableIndexed();
      ApplyFrom(ApplyEntry(acc, line, i), line, i + 1)
  }

  /** The inner loop of the header scan: every table pattern tried on one
      line, in order; several may fire on the same line. */
  function ApplyPatterns(acc: Acc, line: string): (r: Acc)
    ensures r.flags == acc.flags
    ensures r.header.flags == acc.header.flags
    ensures r.header.constantsPropagated == acc.header.constantsPropagated
    ensures NonNegative(acc.header) ==> NonNegative(r.header)
  {
    ApplyFrom(acc, line, 0)
  }

  /** Applying entries `i..` to one line sets the numeric field of entry
      `t` to the value its own match captured, if `t` is among them and
      matched; every other entry leaves that field alone. */
  lemma {:induction false} ApplyFromNumeric(acc: Acc, line: string, i: nat, t: nat)
    requires i <= |HeaderPatterns| && t < |HeaderPatterns| && TableFields[t].Numeric()
    ensures var f := TableFields[t]; var m := EntryMatch(t, line);
      Get(ApplyFrom(acc, line, i).header, f) == (if i <= t && m.Some? then Some(GroupInt(m.value)) else Get(acc.header, f))
    decreases |HeaderPatterns| - i
  {
    if t < i {
      ApplyFromAfter(acc, line, i, t);
    } else {
      var next := ApplyEntry(acc, line, i);
      assert ApplyFrom(acc, line, i) == ApplyFrom(next, line, i + 1);
      if i == t {
        ApplyFromAfter(next, line, i + 1, t);
      } else {
        ApplyFromNumeric(next, line, i + 1, t);
        EntryKeepsOthers(acc, line, i, t);
      }
    }
  }

  /** Entries after `t` leave the numeric field of entry `t` alone. */
  lemma {:induction false} ApplyFromAfter(acc: Acc, line: string, i: nat, t: nat)
    requires i <= |HeaderPatterns| && t < i && TableFields[t].Numeric()
    ensures Get(ApplyFrom(acc, line, i).header, TableFields[t]) == Get(acc.header, TableFields[t])
    decreases |HeaderPatterns| - i
  {
    if i < |HeaderPatterns| {
      var next := ApplyEntry(acc, line, i);
      assert ApplyFrom(acc, line, i) == ApplyFrom(next, line, i + 1);
      ApplyFromAfter(next, line, i + 1, t);
      EntryKeepsOthers(acc, line, i, t);
    }
  }

  /** Entry `i` leaves the numeric field of any other entry `t` alone. */
  lemma EntryKeepsOthers(acc: Acc, line: string, i: nat, t: nat)
    requires i < |HeaderPatterns| && t < |HeaderPatterns| && i != t && TableFields[t].Numeric()
    ensures Get(ApplyEntry(acc, line, i).header, TableFields[t]) == Get(acc.header, TableFields[t])
  {
    TableIndexed();
    assert TableFields[i] != TableFields[t];
  }

  /** Entry `i` leaves the source path alone unless it is the `source_file`
      entry `t`. */
  lemma EntryKeepsSource(acc: Acc, line: string, i: nat, t: nat)
    requires i < |HeaderPatterns| && t < |HeaderPatterns| && i != t && TableFields[t] == SourceFile
    ensures ApplyEntry(acc, line, i).header.sourceFile == acc.header.sourceFile
  {
    TableIndexed();
    assert TableFields[i] != SourceFile;
  }

  /** Entry `i` leaves `commentsRemoved` alone unless it is the
      `nocomments` entry `t`. */
  lemma EntryKeepsComments(acc: Acc, line: string, i: nat, t: nat)
    requires i < |HeaderPatterns| && t < |HeaderPatterns| && i != t && TableFields[t] == CommentsRemoved
    ensures ApplyEntry(acc, line, i).header.commentsRemoved == acc.header.commentsRemoved
  {
    TableIndexed();
    assert TableFields[i] != CommentsRemoved;
  }

  /** Applying entries `i..` to one line sets the source path to the group
      captured by the `source_file` entry, if it is among them and matched. */
  lemma {:induction false} ApplyFromSourceFile(acc: Acc, line: string, i: nat, t: nat)
    requires i <= |HeaderPatterns| && t < |HeaderPatterns| && TableFields[t] == SourceFile
    ensures var m := EntryMatch(t, line);
      ApplyFrom(acc, line, i).header.sourceFile == (if i <= t && m.Some? then m.value.group else acc.header.sourceFile)
    decreases |HeaderPatterns| - i
  {
    if t < i {
      ApplyFromSourceAfter(acc, line, i, t);
    } else {
      var next := ApplyEntry(acc, line, i);
      assert ApplyFrom(acc, line, i) == ApplyFrom(next, line, i + 1);
      if i == t {
        ApplyFromSourceAfter(next, line, i + 1, t);
      } else {
        ApplyFromSourceFile(next, line, i + 1, t);
        EntryKeepsSource(acc, line, i, t);
      }
    }
  }

  /** Entries after the `source_file` entry leave the source path alone. */
  lemma {:induction false} ApplyFromSourceAfter(acc: Acc, line: string, i: nat, t: nat)
    requires i <= |HeaderPatterns| && t < i && TableFields[t] == SourceFile
    ensures ApplyFrom(acc, line, i).header.sourceFile == acc.header.sourceFile
    decreases |HeaderPatterns| - i
  {
    if i < |HeaderPatterns| {
      var next := ApplyEntry(acc, line, i);
      assert ApplyFrom(acc, line, i) == ApplyFrom(next, line, i + 1);
      ApplyFromSourceAfter(next, line, i + 1, t);
      EntryKeepsSource(acc, line, i, t);
    }
  }

  /** Applying entries `i..` to one line turns `commentsRemoved` on exactly
      when the `nocomments` entry is among them and matches; nothing turns
      it off. */
  lemma {:induction false} ApplyFromNoComments(acc: Acc, line: string, i: nat, t: nat)
    requires i <= |HeaderPatterns| && t < |HeaderPatterns| && TableFields[t] == CommentsRemoved
    ensures ApplyFrom(acc, line, i).header.commentsRemoved == (acc.header.commentsRemoved || (i <= t && EntryMatch(t, line).Some?))
    decreases |HeaderPatterns| - i
  {
    if t < i {
      ApplyFromCommentsAfter(acc, line, i, t);
    } else {
      var next := ApplyEntry(acc, line, i);
      assert ApplyFrom(acc, line, i) == ApplyFrom(next, line, i + 1);
      if i == t {
        ApplyFromCommentsAfter(next, line, i + 1, t);
      } else {
        ApplyFromNoComments(next, line, i + 1, t);
        EntryKeepsComments(acc, line, i, t);
      }
    }
  }

  /** Entries after the `nocomments` entry leave `commentsRemoved` alone. */
  lemma {:induction false} ApplyFromCommentsAfter(acc: Acc, line: string, i: nat, t: nat)
    requires i <= |HeaderPatterns| && t < i && TableFields[t] == CommentsRemoved
    ensures ApplyFrom(acc, line, i).header.commentsRemoved == acc.header.commentsRemoved
    decreases |HeaderPatterns| - i
  {
    if i < |HeaderPatterns| {
      var next := ApplyEntry(acc, line, i);
      assert ApplyFrom(acc, line, i) == ApplyFrom(next, line, i + 1);
      ApplyFromCommentsAfter(next, line, i + 1, t);
      EntryKeepsComments(acc, line, i, t);
    }
  }

  /** On one line, the field of a numeric entry ends up with the value that
      entry captured, or keeps its old value when the entry does not match. */
  lemma ApplyPatternsNumeric(acc: Acc, line: string, t: nat)
    requires t < |HeaderPatterns| && TableFields[t].Numeric()
    ensures Get(ApplyPatterns(acc, line).header, TableFields[t]) ==
      (match EntryMatch(t, line) case Some(m) => Some(GroupInt(m)) case None => Get(acc.header, TableFields[t]))
  {
    ApplyFromNumeric(acc, line, 0, t);
  }

  /* ---------------------------------------------------------------------
     The header scan
     --------------------------------------------------------------------- */

  /** The outer loop of the header scan: each line goes through the table,
      then the scan stops after the first line that is neither a comment
      nor blank. */
  function ScanHeader(lines: seq<string>, acc: Acc): Acc {
    ScanUntil(lines, acc, ApplyPatterns, IsCode)
  }

  /** What the scan keeps from its empty start: no flag collected, the
      `constants` flag off, every set numeric field non-negative. */
  predicate Clean(acc: Acc) {
    acc.flags == [] && !acc.header.constantsPropagated && NonNegative(acc.header)
  }

  /** Python's `parse_header`: scan the file from its first line and hand
      back the record with the collected flag list attached. */
  function ParseHeader(file: seq<string>): (h: Header)
    ensures h.flags == []
    ensures !h.constantsPropagated
    ensures NonNegative(h)
  {
    ScanUntilKeeps(file, EmptyAcc, ApplyPatterns, IsCode, Clean);
    Finish(ScanHeader(file, EmptyAcc))
  }

  /** `header.flags = flags`: the collected flag list is attached at the end
      and the record's other fields are left as the scan set them. */
  function Finish(acc: Acc): (h: Header)
    ensures h.flags == acc.flags
    ensures h.sourceFile == acc.header.sourceFile
    ensures h.constantsPropagated == acc.header.constantsPropagated
    ensures h.commentsRemoved == acc.header.commentsRemoved
  {
    acc.header.(flags := acc.flags)
  }

  /** Attaching the flag list leaves every numeric field as it is. */
  lemma FinishKeepsNumeric(acc: Acc, f: Field)
    requires f.Numeric()
    ensures Get(Finish(acc), f) == Get(acc.header, f)
  {
  }

  /** On a one-line file the scan is one pass of the table over that line. */
  lemma ScanHeaderOne(line: string, acc: Acc)
    ensures ScanHeader([line], acc) == ApplyPatterns(acc, line)
  {
    ScanUntilOne(line, acc, ApplyPatterns, IsCode);
  }

  /** How many lines the header scan reads. */
  function HeaderEnd(file: seq<string>): nat {
    StopEnd(file, IsCode)
  }

  /** The lines the header scan reads. */
  function HeaderBlock(file: seq<string>): seq<string> {
    file[..HeaderEnd(file)]
  }

  /** The table applied to `lines` one after another: the reference the
      early-stopping scan is compared with. */
  function Fold(lines: seq<string>, acc: Acc): Acc {
    FoldLines(lines, acc, ApplyPatterns)
  }

  /** The match on the last line of `lines` where `pat` is found. */
  function LastMatch(lines: seq<string>, pat: Pattern): (r: Option<Match>)
    ensures r.Some? ==> (r.value.group.None? <==> pat.Marker?)
    ensures r.Some? && pat.Numeric() ==> IsDigits(r.value.group.value)
  {
    LastFound(lines, line => Search(pat, line))
  }

  /** `LastMatch` is the match of the last line on which the pattern is
      found, and there is none exactly when no line matches. */
  lemma LastMatchIsLast(lines: seq<string>, pat: Pattern)
    ensures LastMatch(lines, pat).Some? ==> exists i :: 0 <= i < |lines| && LastMatch(lines, pat) == Search(pat, lines[i])
                                              && (forall j :: i < j < |lines| ==> Search(pat, lines[j]).None?)
    ensures LastMatch(lines, pat).None? <==> forall i :: 0 <= i < |lines| ==> Search(pat, lines[i]).None?
  {
    LastFoundIsLast(lines, line => Search(pat, line));
    LastFoundAbsent(lines, line => Search(pat, line));
  }

  /** The early-stopping scan computes the fold of exactly the lines up to
      and including the first code line. */
  lemma ScanHeaderIsFold(file: seq<string>, acc: Acc)
    ensures ScanHeader(file, acc) == Fold(HeaderBlock(file), acc)
  {
    ScanUntilIsFold(file, acc, ApplyPatterns, IsCode);
  }

  /** Last write wins: over a run of lines, a numeric field ends up with
      the value captured on the last line where its pattern is found, and
      keeps its starting value when no line matches. */
  lemma {:induction false} FoldNumeric(lines: seq<string>, acc: Acc, t: nat)
    requires t < |HeaderPatterns| && TableFields[t].Numeric()
    ensures HeaderPatterns[t].1.Numeric()
    ensures var f := TableFields[t]; var m := LastMatch(lines, HeaderPatterns[t].1);
      Get(Fold(lines, acc).header, f) == (if m.Some? then Some(GroupInt(m.value)) else Get(acc.header, f))
    decreases |lines|
  {
    EntryShape(t);
    if |lines| > 0 {
      var init, last := lines[..|lines| - 1], lines[|lines| - 1];
      assert Fold(lines, acc) == ApplyPatterns(Fold(init, acc), last);
      FoldNumeric(init, acc, t);
      ApplyFromNumeric(Fold(init, acc), last, 0, t);
    }
  }

  /** Last write wins for the source path as well. */
  lemma {:induction false} FoldSourceFile(lines: seq<string>, acc: Acc, t: nat)
    requires t < |HeaderPatterns| && TableFields[t] == SourceFile
    ensures var m := LastMatch(lines, HeaderPatterns[t].1);
      Fold(lines, acc).header.sourceFile == (if m.Some? then m.value.group else acc.header.sourceFile)
    decreases |lines|
  {
    if |lines| > 0 {
      var init, last := lines[..|lines| - 1], lines[|lines| - 1];
      assert Fold(lines, acc) == ApplyPatterns(Fold(init, acc), last);
      FoldSourceFile(init, acc, t);
      ApplyFromSourceFile(Fold(init, acc), last, 0, t);
    }
  }

  /** `commentsRemoved` is on after a run of lines exactly when it was on
      before or some line carries the `nocomments` marker. */
  lemma {:induction false} FoldNoComments(lines: seq<string>, acc: Acc, t: nat)
    requires t < |HeaderPatterns| && TableFields[t] == CommentsRemoved
    ensures Fold(lines, acc).header.commentsRemoved == (acc.header.commentsRemoved || LastMatch(lines, HeaderPatterns[t].1).Some?)
    decreases |lines|
  {
    if |lines| > 0 {
      var init, last := lines[..|lines| - 1], lines[|lines| - 1];
      assert Fold(lines, acc) == ApplyPatterns(Fold(init, acc), last);
      FoldNoComments(init, acc, t);
      ApplyFromNoComments(Fold(init, acc), last, 0, t);
    }
  }

  /* ---------------------------------------------------------------------
     Properties of the whole header scan
     --------------------------------------------------------------------- */

  /** The scan reads every line up to the first code line, that code line
      itself, and nothing after it. */
  lemma HeaderEndIsFirstCodeLine(file: seq<string>)
    ensures forall i :: 0 <= i < HeaderEnd(file) - 1 ==> !IsCode(file[i])
    ensures HeaderEnd(file) == |file| || (0 < HeaderEnd(file) && IsCode(file[HeaderEnd(file) - 1]))
    ensures HeaderEnd(file) < |file| || forall i :: 0 <= i < |file| - 1 ==> !IsCode(file[i])
  {
    StopEndIsFirst(file, IsCode);
  }

  /** Lines after the first code line never affect the header, and that
      code line is still run through the patterns before the scan stops. */
  lemma StopsAfterFirstCodeLine(prefix: seq<string>, line: string, rest: seq<string>)
    requires forall i :: 0 <= i < |prefix| ==> !IsCode(prefix[i])
    requires IsCode(line)
    ensures ParseHeader(prefix + [line] + rest) == Finish(ApplyPatterns(Fold(prefix, EmptyAcc), line))
  {
    var file := prefix + [line] + rest;
    StopEndAfter(prefix, line, rest, IsCode);
    assert HeaderBlock(file) == prefix + [line];
    assert (prefix + [line])[..|prefix|] == prefix;
    ScanHeaderIsFold(file, EmptyAcc);
  }

  /** Last write wins in the parsed header: a numeric field holds the value
      captured on the last line of the header block where its pattern is
      found, and is absent when no such line exists. */
  lemma ParsedNumericField(file: seq<string>, t: nat)
    requires t < |HeaderPatterns| && TableFields[t].Numeric()
    ensures HeaderPatterns[t].1.Numeric()
    ensures var m := LastMatch(HeaderBlock(file), HeaderPatterns[t].1);
      Get(ParseHeader(file), TableFields[t]) == (if m.Some? then Some(GroupInt(m.value)) else None)
  {
    EntryShape(t);
    var acc := ScanHeader(file, EmptyAcc);
    ScanHeaderIsFold(file, EmptyAcc);
    FoldNumeric(HeaderBlock(file), EmptyAcc, t);
    FinishKeepsNumeric(acc, TableFields[t]);
  }

  /** The parsed source path is the rest of the last header-block line that
      carries the `for RISC-V executable obtained from` phrase, or absent. */
  lemma ParsedSourceFile(file: seq<string>, t: nat)
    requires t < |HeaderPatterns| && TableFields[t] == SourceFile
    ensures var m := LastMatch(HeaderBlock(file), HeaderPatterns[t].1);
      ParseHeader(file).sourceFile == (if m.Some? then m.value.group else None)
  {
    ScanHeaderIsFold(file, EmptyAcc);
    FoldSourceFile(HeaderBlock(file), EmptyAcc, t);
  }

  /** `commentsRemoved` is set exactly when some header-block line carries
      the `; with -nocomments` marker. */
  lemma ParsedCommentsRemoved(file: seq<string>, t: nat)
    requires t < |HeaderPatterns| && TableFields[t] == CommentsRemoved
    ensures ParseHeader(file).commentsRemoved <==> LastMatch(HeaderBlock(file), HeaderPatterns[t].1).Some?
  {
    ScanHeaderIsFold(file, EmptyAcc);
    FoldNoComments(HeaderBlock(file), EmptyAcc, t);
  }
}

=== FILE: scenarios.dfy ===
/**
 Worked examples: concrete model files run through the statistics scanner
 and single header lines run through the pattern table.
 */
module Scenarios {
  import opened Wrappers
  import opened Text
  import opened Patterns
  import opened HeaderFields
  import opened HeaderTable
  import opened RotorHeader
  import opened ModelParser
  import opened HeaderLines

  /** A literal occurs at `i` when its characters do, one by one. */
  lemma LiteralAtByChars(s: string, i: nat, lit: string)
    requires i + |lit| <= |s|
    requires forall j :: 0 <= j < |lit| ==> s[i + j] == lit[j]
    ensures LiteralAt(s, i, lit)
  {
    assert s[i..i + |lit|] == lit;
  }

  const SignatureLine := "; generated SMT-LIB file foo.smt2"

  /** The signature written by Rotor is recognised. */
  lemma SignatureRecognised()
    ensures IsSignature(SignatureLine)
  {
    var s := SignatureLine;
    GeneratedAt();
    SmtLibAt();
    FileAt();
    SignaturePath();
    assert IsSignature(s);
  }

  /** Where the keywords of the signature line sit, one lemma each. */
  lemma GeneratedAt()
    ensures Span(SignatureLine, 1, IsSpace) == 2 && LiteralAt(SignatureLine, 2, "generated")
  {
    var s := SignatureLine;
    assert s[1] == ' ' && s[2] == 'g';
    KeywordAfterSpace(s, 1, "generated");
  }

  lemma SmtLibAt()
    ensures Span(SignatureLine, 11, IsSpace) == 12 && LiteralAt(SignatureLine, 12, "SMT-LIB")
  {
    var s := SignatureLine;
    assert s[11] == ' ' && s[12] == 'S';
    KeywordAfterSpace(s, 11, "SMT-LIB");
  }

  lemma FileAt()
    ensures Span(SignatureLine, 19, IsSpace) == 20 && LiteralAt(SignatureLine, 20, "file")
  {
    var s := SignatureLine;
    assert s[19] == ' ' && s[20] == 'f';
    KeywordAfterSpace(s, 19, "file");
  }

  /** A single space followed by a keyword: the whitespace run ends where
      the keyword starts. */
  lemma KeywordAfterSpace(s: string, i: nat, lit: string)
    requires i + 1 + |lit| <= |s| && |lit| > 0
    requires IsSpace(s[i]) && !IsSpace(s[i + 1])
    requires forall j :: 0 <= j < |lit| ==> s[i + 1 + j] == lit[j]
    ensures Span(s, i, IsSpace) == i + 1 && LiteralAt(s, i + 1, lit)
  {
    LiteralAtByChars(s, i + 1, lit);
  }

  /** The path `foo.smt2` closes the signature line. */
  lemma SignaturePath()
    ensures SmtPathTail(SignatureLine, 24)
  {
    var s := SignatureLine;
    assert IsSpace(s[24]);
    assert PathBody(s, 25, 28);
    LiteralAtByChars(s, 28, ".smt2");
  }

  const DefineLine := "(define-fun x () Bool true)"

  /** The definition line of the small model is a define-fun command. */
  lemma DefineLineIsDefineFun()
    ensures IsCode(DefineLine) && IsDefineFun(DefineLine)
  {
    var d := DefineLine;
    assert d[0] == '(' && Span(d, 0, IsSpace) == 0;
    assert CaselessLiteralAt(d, 0, DefineFun) by {
      assert forall j :: 0 <= j < |DefineFun| ==> d[j] == DefineFun[j];
    }
    DefineFunIsCode(d);
  }

  /** A three-line model: the signature, one definition and an empty line. */
  const SmallModel: seq<string> := [SignatureLine, DefineLine, ""]

  /** The small model's counts: three lines, one each of comment, code and
      blank, one define-fun, and the Rotor signature seen. */
  lemma SmallModelStats()
    ensures Parse(SmallModel, None).stats == Stats(3, 1, 1, 1, 1, true)
  {
    var file := SmallModel;
    var o0 := Scan(file, 0, None, ParseHeader);
    var o1 := Scan(file, 1, None, ParseHeader);
    var o2 := Scan(file, 2, None, ParseHeader);
    assert o1 == Step(o0, file[0], file, ParseHeader);
    SignatureStep(o0, file[0], file);
    assert o2 == Step(o1, file[1], file, ParseHeader);
    DefineStep(o1, file[1], file);
    assert Scan(file, 3, None, ParseHeader) == Step(o2, file[2], file, ParseHeader);
    BlankStep(o2, file[2], file);
  }

  /** The signature as the first line: counted as a comment, and the model
      is marked as Rotor-generated. */
  lemma SignatureStep(o: Outcome, line: string, file: seq<string>)
    requires o.stats == ZeroStats && line == SignatureLine
    ensures Step(o, line, file, ParseHeader).stats == Stats(1, 1, 0, 0, 0, true)
  {
    SignatureRecognised();
    assert line[0] == ';' && Span(line, 0, IsSpace) == 0;
  }

  /** The definition line: one more code line and one more define-fun. */
  lemma DefineStep(o: Outcome, line: string, file: seq<string>)
    requires o.stats == Stats(1, 1, 0, 0, 0, true) && line == DefineLine
    ensures Step(o, line, file, ParseHeader).stats == Stats(2, 1, 1, 0, 1, true)
  {
    DefineLineIsDefineFun();
  }

  /** The empty line: one more blank line. */
  lemma BlankStep(o: Outcome, line: string, file: seq<string>)
    requires o.stats == Stats(2, 1, 1, 0, 1, true) && line == ""
    ensures Step(o, line, file, ParseHeader).stats == Stats(3, 1, 1, 1, 1, true)
  {
  }

  /** An indented signature is only a comment: the model is not marked as
      Rotor-generated and the header parser never runs. */
  const IndentedModel: seq<string> := ["  " + SignatureLine]

  lemma IndentedSignatureIgnored()
    ensures var r := Parse(IndentedModel, None);
      r.stats == Stats(1, 1, 0, 0, 0, false) && r.rotorHeader == None && r.headerCalls == 0
  {
    var file := IndentedModel;
    var line := file[0];
    IndentedLineIsNotSignature(line);
    assert Span(line, 0, IsSpace) == 2 by {
      assert line[0] == ' ' && line[1] == ' ' && line[2] == ';';
    }
    assert IsComment(line);
    assert Scan(file, 1, None, ParseHeader) == Step(Scan(file, 0, None, ParseHeader), line, file, ParseHeader);
  }

  /** A one-line header whose numeric entry `t` captures `v`: the field
      holds the value of `v`. */
  lemma OneLineNumeric(line: string, t: nat, f: Field, v: string)
    requires t < |HeaderPatterns| && f == TableFields[t] && f.Numeric()
    requires EntryMatch(t, line) == Some(Match(Some(v)))
    ensures IsDigits(v)
    ensures Get(ParseHeader([line]), f) == Some(DigitsValue(v))
  {
    ScanHeaderOne(line, EmptyAcc);
    ApplyPatternsNumeric(EmptyAcc, line, t);
    FinishKeepsNumeric(ScanHeader([line], EmptyAcc), TableFields[t]);
  }

  /** The `kmin` entry of the table. */
  lemma KminEntry()
    ensures HeaderPatterns[1] == ("kmin", Digits(KminLead, ""))
  {
  }

  /** The `kmax` entry of the table. */
  lemma KmaxEntry()
    ensures HeaderPatterns[2] == ("kmax", GapDigits(WithLead, KmaxMid))
  {
  }

  /** The `-kmin` line Rotor writes for a bound `n` is read back as `n`. */
  lemma KminRoundTrip(n: nat)
    ensures ParseHeader([KminLead + Decimal(n)]).kmin == Some(n)
  {
    var d := Decimal(n);
    var s := KminLead + d;
    assert s == KminLead + d + "";
    DigitsAtRun(KminLead, d, "");
    KminEntry();
    SearchAtStart(HeaderPatterns[1].1, s);
    BoundFields();
    OneLineNumeric(s, 1, Kmin, d);
    DigitsValueOfDecimal(n);
  }

  /** The `kmin` entry reads the first number of a bounds line. */
  lemma BoundsKmin(a: nat, b: nat)
    ensures EntryMatch(1, BoundsLine(a, b)) == Some(Match(Some(Decimal(a))))
  {
    var rest := KmaxMid + Decimal(b);
    BoundsLineForKmin(a, b);
    DigitsAtRun(KminLead, Decimal(a), rest);
    KminEntry();
    SearchAtStart(HeaderPatterns[1].1, BoundsLine(a, b));
  }

  /** The `kmax` entry reads the second number of a bounds line: the last
      ` -kmax ` plus a digit is the only one. */
  lemma BoundsKmax(a: nat, b: nat)
    ensures EntryMatch(2, BoundsLine(a, b)) == Some(Match(Some(Decimal(b))))
  {
    BoundsLineForKmax(a, b);
    KminGapPlain(a);
    KmaxMidPlain();
    GapDigitsAtEnd(WithLead, KminFlag + Decimal(a), KmaxMid, Decimal(b));
    KmaxEntry();
    SearchAtStart(HeaderPatterns[2].1, BoundsLine(a, b));
  }

  /** The bounds Rotor writes on one line are read back as written. */
  lemma BoundsRoundTrip(a: nat, b: nat)
    ensures var h := ParseHeader([BoundsLine(a, b)]); h.kmin == Some(a) && h.kmax == Some(b)
  {
    BoundsKmin(a, b);
    BoundsKmax(a, b);
    BoundFields();
    OneLineNumeric(BoundsLine(a, b), 1, Kmin, Decimal(a));
    OneLineNumeric(BoundsLine(a, b), 2, Kmax, Decimal(b));
    DigitsValueOfDecimal(a);
    DigitsValueOfDecimal(b);
  }

  /** The `kmax` pattern needs a space before `-kmax` that the leading
      `; with ` has not already consumed, so `; with -kmax 5` sets nothing. */
  const KmaxNoGapLine := "; with -kmax 5"

  lemma KmaxWithoutGap()
    ensures EntryMatch(2, KmaxNoGapLine).None?
  {
    var s := KmaxNoGapLine;
    var lead, mid := "; with ", " -kmax ";
    var pat := HeaderPatterns[2].1;
    assert pat == GapDigits(lead, mid);
    forall p | 0 <= p <= |s|
      ensures TryAt(pat, s, p).None?
    {
      if p == 0 {
        GapDigitsAtMeaning(s, 0, lead, mid);
        forall e: nat | GapMatch(s, 0, lead, e, mid)
          ensures false
        {
        }
      } else if p + |lead| <= |s| {
        assert s[p..p + |lead|][0] == s[p];
      }
    }
    SearchIsLeftmost(pat, s);
  }

  /** A one-line header whose numeric entry `t` does not match leaves the
      field absent. */
  lemma OneLineAbsent(line: string, t: nat)
    requires t < |HeaderPatterns| && TableFields[t].Numeric()
    requires EntryMatch(t, line).None?
    ensures Get(ParseHeader([line]), TableFields[t]) == None
  {
    ScanHeaderOne(line, EmptyAcc);
    ApplyPatternsNumeric(EmptyAcc, line, t);
    FinishKeepsNumeric(ScanHeader([line], EmptyAcc), TableFields[t]);
  }

  /** `; with -kmax 5` as a header: no bound is read. */
  lemma KmaxWithoutGapHeader()
    ensures ParseHeader([KmaxNoGapLine]).kmax == None
  {
    KmaxWithoutGap();
    OneLineAbsent(KmaxNoGapLine, 2);
    assert TableFields[2] == Kmax;
    var h := ParseHeader([KmaxNoGapLine]);
    assert Get(h, Kmax) == h.kmax;
  }

  const NoCommentsLine := "; with -nocomments"

  /** `; with -nocomments` as a header: the record says comments were
      removed, and the marker is not also recorded as a flag. */
  lemma NoCommentsHeader()
    ensures var h := ParseHeader([NoCommentsLine]); h.commentsRemoved && h.flags == []
  {
    var s := NoCommentsLine;
    var pat := HeaderPatterns[12].1;
    assert pat == Marker(s);
    assert LiteralAt(s, 0, s);
    assert TryAt(pat, s, 0).Some?;
    assert EntryMatch(12, s).Some?;
    ScanHeaderOne(s, EmptyAcc);
    ApplyFromNoComments(EmptyAcc, s, 0, 12);
  }
}

=== FILE: text.dfy ===
/**
 Character classes and small string helpers shared by the hand-coded
 regular expressions of the model parsers: Python's `\s`, `\d` and `.`,
 case-insensitive comparison, maximal character runs, literal matching,
 decimal conversion (`int(...)` on a digit run) and the `_`-to-`-`
 normalisation of flag names.
 */
module Text {

  /** Python's `\s` on str patterns: exactly the characters for which
      `str.isspace()` holds. */
  predicate IsSpace(c: char) {
    || ('\t' <= c <= '\r')
    || ('\U{1c}' <= c <= '\U{1f}')
    || c == ' '
    || c == '\U{85}'
    || c == '\U{a0}'
    || c == '\U{1680}'
    || ('\U{2000}' <= c <= '\U{200a}')
    || c == '\U{2028}'
    || c == '\U{2029}'
    || c == '\U{202f}'
    || c == '\U{205f}'
    || c == '\U{3000}'
  }

  /** `\d`, restricted to the ASCII digits. */
  predicate IsDigit(c: char) {
    '0' <= c <= '9'
  }

  /** Python's `.` without DOTALL: any character except a line feed. */
  predicate NotNewline(c: char) {
    c != '\n'
  }

  /** A non-empty string made only of ASCII digits: what `(\d+)` captures. */
  predicate IsDigits(s: string) {
    |s| > 0 && forall i :: 0 <= i < |s| ==> IsDigit(s[i])
  }

  /** Does the input character `c` match the pattern character `p` under
      `re.IGNORECASE`? ASCII letters match either case; Python also lets
      U+0130 and U+0131 match `i`, U+017F match `s` and U+212A match `k`. */
  predicate CaselessEq(c: char, p: char) {
    || c == p
    || ('a' <= p <= 'z' && c as int == p as int - 32)
    || ('A' <= p <= 'Z' && c as int == p as int + 32)
    || ((p == 'i' || p == 'I') && (c == '\U{130}' || c == '\U{131}'))
    || ((p == 's' || p == 'S') && c == '\U{17f}')
    || ((p == 'k' || p == 'K') && c == '\U{212a}')
  }

  /** End of the maximal run of characters satisfying `p` that starts at
      index `i`: the position a greedy `p*` stops at. */
  function Span(s: string, i: nat, p: char -> bool): (k: nat)
    requires i <= |s|
    ensures i <= k <= |s|
    ensures forall j :: i <= j < k ==> p(s[j])
    ensures k < |s| ==> !p(s[k])
    decreases |s| - i
  {
    if i == |s| || !p(s[i]) then i else Span(s, i + 1, p)
  }

  /** Does `lit` occur in `s` starting exactly at index `i`? */
  predicate LiteralAt(s: string, i: nat, lit: string) {
    i + |lit| <= |s| && s[i..i + |lit|] == lit
  }

  /** Does `lit` occur in `s` at index `i`, compared case-insensitively? */
  predicate CaselessLiteralAt(s: string, i: nat, lit: string) {
    && i + |lit| <= |s|
    && forall j :: 0 <= j < |lit| ==> CaselessEq(s[i + j], lit[j])
  }

  /** The numeric value of one ASCII digit. */
  function DigitValue(c: char): (v: nat)
    requires IsDigit(c)
    ensures v < 10
  {
    c as int - '0' as int
  }

  /** Python's `int(d)` on a captured digit run, read most significant
      digit first. */
  function DigitsValue(d: string): (n: nat)
    requires forall i :: 0 <= i < |d| ==> IsDigit(d[i])
    ensures n == 0 <==> forall i :: 0 <= i < |d| ==> d[i] == '0'
    decreases |d|
  {
    if |d| == 0 then 0
    else DigitsValue(d[..|d| - 1]) * 10 + DigitValue(d[|d| - 1])
  }

  /** The digit character of a value below ten. */
  function DigitChar(v: nat): (c: char)
    requires v < 10
    ensures IsDigit(c) && DigitValue(c) == v
  {
    (v + '0' as int) as char
  }

  /** The shortest decimal spelling of `n`, as Python's `str(n)` writes it;
      the partner that `DigitsValue` inverts. */
  function Decimal(n: nat): (d: string)
    ensures IsDigits(d)
    ensures |d| > 1 ==> d[0] != '0'
    decreases n
  {
    if n < 10 then [DigitChar(n)] else Decimal(n / 10) + [DigitChar(n % 10)]
  }

  /** Converting a number to decimal and back gives the number again. */
  lemma {:induction false} DigitsValueOfDecimal(n: nat)
    ensures DigitsValue(Decimal(n)) == n
    decreases n
  {
    if n >= 10 {
      var d := Decimal(n);
      assert d[..|d| - 1] == Decimal(n / 10);
      DigitsValueOfDecimal(n / 10);
    }
  }

  /** Reading a digit run without a leading zero and writing the value back
      in decimal gives the same run: `str(int(d)) == d`. */
  lemma {:induction false} DecimalOfDigitsValue(d: string)
    requires IsDigits(d)
    requires |d| == 1 || d[0] != '0'
    ensures Decimal(DigitsValue(d)) == d
    decreases |d|
  {
    if |d| > 1 {
      var init := d[..|d| - 1];
      var n := DigitsValue(d);
      assert init[0] == d[0];
      assert DigitsValue(init) != 0;
      DecimalOfDigitsValue(init);
      assert n / 10 == DigitsValue(init) && n % 10 == DigitValue(d[|d| - 1]);
      assert DigitChar(n % 10) == d[|d| - 1];
      assert d == init + [d[|d| - 1]];
    }
  }

  /** Leading zeros do not change the value of a digit run. */
  lemma {:induction false} DigitsValueLeadingZero(d: string)
    requires forall i :: 0 <= i < |d| ==> IsDigit(d[i])
    ensures DigitsValue("0" + d) == DigitsValue(d)
    decreases |d|
  {
    if |d| > 0 {
      var z := "0" + d;
      assert z[..|z| - 1] == "0" + d[..|d| - 1];
      DigitsValueLeadingZero(d[..|d| - 1]);
    }
  }

  /** The flag spelling of a table key: every `_` becomes `-`, as
      `field.replace('_', '-')` does. */
  function Normalize(key: string): (r: string)
    ensures |r| == |key|
    ensures forall i :: 0 <= i < |key| ==> r[i] == (if key[i] == '_' then '-' else key[i])
    ensures '_' !in r
    decreases |key|
  {
    if |key| == 0 then ""
    else [if key[0] == '_' then '-' else key[0]] + Normalize(key[1..])
  }
}

=== FILE: wrappers.dfy ===
/** The optional-value wrapper used for header fields and regex matches. */
module Wrappers {

  /** A value that may be absent: Python's `None` or a present value. */
  datatype Option<+T> = None | Some(value: T)
}
